=== FILE: README.md ===
# Clinic booking assistant — a Dafny model

This project models the core of a WhatsApp booking assistant for aesthetic
clinics. The core has five parts:

- **Dialogue.** A five-state dialogue (`initial`, `awaiting_service`,
  `service_selected`, `date_selected`, `appointment_pending`) turns a
  patient's text into a reply, writes to the conversation's context, and,
  on confirmation, books an appointment.
- **Slot engine.** It lists a day's free hourly slots between 09:00 and
  19:00, and it books an appointment together with its reminder.
- **Contact and conversation registry.** It normalises phone numbers,
  finds or creates contacts, WhatsApp channels and open conversations,
  counts messages, and gives the recent-message window.
- **Reminder sweep.** It sends the due reminders and marks them sent.
- **Message endpoints.** These cover pagination of a conversation's
  messages, validation of a manual staff message, and the message
  statistics fold.

The hosted store is one `Store.Db` record of tables, each held as a sequence.
A row's id is its index, because the core never deletes rows. An insert
appends a row. "The first row" a query returns is the one with the lowest
index.

The model does not evaluate anything outside the core. The following are
passed in as parameters:

- the clock (`now`, `today`);
- the overlap check `fn_check_overlap`;
- the `ilike` lookup of a service by name;
- the calendar validation of a `YYYY-MM-DD` string;
- the WhatsApp send, which returns or raises, and may do either on each call
  of a sweep (it receives the call's index);
- the ISO rendering of a timestamp.

Days are counted from a day 0 that is a Monday. Instants are minutes since
that day's midnight. Every regular expression in the dialogue that is an
alternation of literals becomes a substring test (`Text.Contains`).

Several consequences of the dialogue's word matching are proved:

- "valen" contains "vale", so a price question using it reads as a
  confirmation.
- "buenos" contains "no", so it is read as a cancellation.
- "horario" contains "hora", so it opens the booking menu.
- Both ways of naming "rellenos" contain "no", so that treatment can never
  be selected.

## Model

| member | source | states |
|---|---|---|
| Chatbot.Handle | backend/services/chatbot.py:22-65 | Confirmation words are checked first, cancellation words second, and the state handler runs last. A confirmation outside `appointment_pending` replies without any write. A cancellation resets to exactly the initial context in `service_selected` and `appointment_pending` only; in every other state it replies without a write. Only a confirmation in `appointment_pending` changes the store. At most two context writes happen. A confirmation in `appointment_pending` is exactly the confirmation step. |
| Chatbot.HandlePreservesWellFormed | backend/services/chatbot.py:42-65 | When the context read is well formed, every context the turn writes is well formed too. |
| Chatbot.SelectionWritesFirstMention | backend/services/chatbot.py:87-106 | A `service_selected` context is written only for a text with no cancellation word, and only for the first catalog entry that the text mentions. |
| Chatbot.Dispatch | backend/services/chatbot.py:53-65 | The handler is chosen by state: `initial` goes to the initial handler, `awaiting_service` to service selection, `service_selected` to date selection and `date_selected` to time selection. `appointment_pending` and unknown states are first rewritten to the initial context, then answered by the initial handler on the same text, which drops the pending slot. Dispatch never changes the store. |
| Chatbot.HandleInitial | backend/services/chatbot.py:67-85 | A booking word opens the menu and writes exactly `{state: awaiting_service}`. Otherwise the first FAQ in table order that matches answers. Otherwise a greeting word gets the greeting (if and only if no FAQ matches). Otherwise the fallback reply. Only the booking branch writes. |
| Chatbot.HandleServiceSelection | backend/services/chatbot.py:87-113 | The first catalog entry whose slug or lower-cased name occurs in the text is looked up. A found row writes exactly `{service_selected, slug, id}`, dropping earlier fields. No match, no row, or a raising lookup gives its own reply and no write. Conversely, when the first mentioned entry's lookup finds a row, that entry is chosen with exactly that write; when it finds none the reply is "unavailable", and when it raises the reply is the lookup error, both with no write. |
| Chatbot.DaysAhead | backend/services/chatbot.py:227-236 | The weekday offset lies in 1..7 and lands on the target weekday (Monday = 0). When today is already that weekday, the offset is 7. |
| Chatbot.ParseDate | backend/services/chatbot.py:218-248 | Precedence is "mañana" (today+1), then "hoy", then "lunes", then "martes", then the leftmost `DDDD-DD-DD`. That last match is accepted exactly when the calendar accepts it. |
| Chatbot.HandleDateSelection | backend/services/chatbot.py:115-128 | A parsed date keeps the whole prior context and sets `date_selected` and the date. A failed parse replies with no write. |
| Chatbot.ParseTimePreference | backend/services/chatbot.py:250-269 | "mañana" gives 10, "tarde" 15, and "medio" together with "día" gives 12. Otherwise the value is the hour of the leftmost one- or two-digit run, which is kept only when it lies in 8..19. A returned hour is always in 8..19. |
| Chatbot.HandleTimeSelection | backend/services/chatbot.py:130-178 | A missing service or date resets the context. A failing slot query resets the context. An empty slot list replies "no availability" with no write. A non-empty list goes to the choice of a time. Every write is either the initial context or the prior context with `appointment_pending` and a slot. |
| Chatbot.NearSlot | backend/services/chatbot.py:147-156 | A slot is chosen exactly when there is a preference and some slot lies within one hour of it; the chosen one is the earliest such slot. |
| Chatbot.ChooseTime | backend/services/chatbot.py:147-174 | When the earliest slot within one hour of the preference exists, the context becomes the prior context plus `appointment_pending` and that slot, and the reply summarises it; if the service slug is not in the catalog, the context is then reset and the reply is the slot error. With no preference or no near slot, the first five or fewer slots are listed with no write. |
| Chatbot.ConfirmAppointment | backend/services/chatbot.py:180-208 | Missing booking data gives an error with no booking and no write. Otherwise the store becomes exactly the booking of the pending slot for the contact. Only a complete booking resets the context. A failed insert leaves the context unchanged. The confirmation names the treatment exactly when the slug is in the catalog. The missing-data reply comes exactly when booking data is missing. A failed insert, or a slug outside the catalog, gets the confirm-error reply. |
| Chatbot.ConfirmBooksPendingSlot | backend/services/chatbot.py:180-205 | Confirming a well-formed pending appointment whose inserts succeed appends exactly one confirmed appointment with the slot's times and one reminder scheduled at its start. It resets the context and replies with the booked treatment. |
| Chatbot.OfferBySlug | backend/services/chatbot.py:15-20 | A catalog lookup by slug succeeds exactly for catalog slugs and returns the entry with that slug. |
| Chatbot.LoadContext | backend/services/chatbot.py:26-36 | The context read is the conversation's stored context. Without a conversation id, or for a missing conversation row, it is the empty (initial) context. |
| Chatbot.Respond | backend/services/chatbot.py:21-65 | One inbound text: the reply is the dialogue's reply on the loaded context. Only the booking tables and this conversation's row can change. The booking tables change only when a pending appointment is confirmed, and they become exactly the dialogue's booking (the appointment and reminder the confirmation inserted). The stored context becomes the dialogue's last write. With no write, the conversations stay as they were. |
| Chatbot.Commit | backend/services/chatbot.py:210-216 | Storing the writes changes only the conversation's row. Its context becomes the last write. Without a conversation id nothing is written. |
| Chatbot.RespondKeepsStoredWellFormed | backend/services/chatbot.py:26-36 | Suppose every stored context records what its stage needs: a catalog service and id, then the date, then the slot. Then this still holds after any turn on any conversation. |
| Chatbot.ValenReadsAsConfirmation | backend/services/chatbot.py:42-45 | A text containing "valen" gets the plain acknowledgement, with no write, outside `appointment_pending`. |
| Chatbot.BuenosReadsAsCancel | backend/services/chatbot.py:47-51 | A text containing "buenos" is never greeted. Without a confirmation word it gets a cancellation reply. |
| Chatbot.HoursQuestionOpensMenu | backend/services/chatbot.py:70-73 | In the initial state, a text containing "horario" (and neither confirmation nor cancellation words) opens the booking menu. |
| Chatbot.RellenosNeverSelected | backend/services/chatbot.py:18 | No turn ever writes a `service_selected` context for "rellenos". |
| Slots.GetSlots | services/availability.py:5-23 | The query fails exactly when the service row or the settings row is missing. Every listed slot starts at 09:00 or later, lasts the service's duration, ends by 19:00, and has no overlap. |
| Slots.CandidatesShape | services/availability.py:14-22 | The k-th candidate start is 09:00 + 60k minutes. The count is (end − start − dur) div 60 + 1 when the first candidate fits, and 0 otherwise. |
| Slots.CandidatesMembership | services/availability.py:16-22 | A start is a candidate exactly when it is on the 60-minute grid and its interval fits. |
| Slots.KeptMembership | services/availability.py:19-21 | A slot is kept exactly when its start is a candidate, its length is the duration, and the oracle reports no overlap. |
| Slots.SlotListedIff | services/availability.py:17-21 | A grid start whose interval fits is listed if and only if the oracle reports no overlap. |
| Slots.SlotsAscending | services/availability.py:16-22 | The slots come out earliest first, with strictly increasing starts. |
| Slots.CandidateCount | services/availability.py:17-22 | A service of at most 600 minutes has (600 − dur) div 60 + 1 candidates. A longer one has none. |
| Slots.ComputeSlots | services/availability.py:13-23 | The `while` loop computes exactly the slot list `get_slots` returns. |
| Slots.BookAppointment | services/availability.py:25-43 | Booking appends one appointment built from the payload, with status `confirmed` and source `whatsapp`. It then appends one reminder with that appointment's id, channel `whatsapp` and `scheduled_at` = the start. It returns the inserted appointment. A failed reminder insert leaves the appointment in place. |
| Slots.BookedSlotNoLongerListed | services/availability.py:17-43 | Once a slot is booked, an overlap check that sees confirmed appointments no longer lists it. |
| Contacts.NormalizePhone | backend/services/contacts.py:11 | The normalised phone contains no space, hyphen or '+'. |
| Contacts.NormalizeKeepsOthers | backend/services/contacts.py:11 | Normalising is stripping followed by dropping every space, hyphen and '+'. All other characters are kept, in order. |
| Contacts.ResolveClinic | backend/services/contacts.py:13-20 | An absent clinic id resolves to the first clinic. The call fails exactly when no clinic exists. |
| Contacts.UpsertContactFromWhatsApp | backend/services/contacts.py:5-56 | The call fails, before any write, exactly when no clinic can be resolved. An existing (phone, clinic) contact is returned as the first such row, and only its activity timestamps change. A new contact is appended with the normalised phone, the placeholder name plus the last four digits, and source and status set. Either way the contact ends up with a WhatsApp channel. The channel table is unchanged when the contact already had a WhatsApp channel; otherwise exactly one primary, active WhatsApp row with the normalised phone is appended. |
| Contacts.EnsureWhatsAppChannel | backend/services/contacts.py:58-74 | A primary, active WhatsApp channel is inserted only when the contact has none. The contact then has exactly one more, or the store is unchanged. |
| Contacts.EnsureChannelIdempotent | backend/services/contacts.py:58-74 | Calling it twice leaves the same store as calling it once. |
| Contacts.GetContactByPhone | backend/services/contacts.py:76-82 | The lookup returns a contact of the clinic whose phone equals the normalised phone, and no earlier row matches. It returns nothing exactly when no row matches. |
| Contacts.UpsertThenFind | backend/services/contacts.py:11-82 | After an upsert, the lookup by the same raw phone and clinic finds the upserted contact. |
| Contacts.UpsertTwiceSameContact | backend/services/contacts.py:23-56 | A second upsert of the same (phone, clinic) returns the same id and adds no contact. |
| Contacts.UpdateContactName | backend/services/contacts.py:84-91 | Only `full_name` (stripped) and `updated_at` of that contact change. |
| Conversations.EnsureOpenConversation | backend/services/conversations.py:5-36 | An existing open conversation is returned, with only its timestamps touched. Otherwise exactly one open conversation with count 0 and the initial context is appended. |
| Conversations.RunPreservesAtMostOneOpen | backend/services/conversations.py:5-79 | Any sequence of find-or-create, close, increment and context writes keeps at most one open conversation per (clinic, contact, channel). |
| Conversations.CloseConversation | backend/services/conversations.py:38-47 | Status becomes closed, and the reason and closing time are recorded. Nothing else changes. |
| Conversations.CloseThenEnsureCreatesFresh | backend/services/conversations.py:5-47 | After closing the open conversation, the next find-or-create appends a fresh one. |
| Conversations.IncrementMessageCount | backend/services/conversations.py:49-62 | The count goes up by exactly one, and nothing else but the timestamps changes. |
| Conversations.GetConversationContext | backend/services/conversations.py:64-70 | The result has min(limit, n) messages of the conversation, in chronological order, and none is older than an omitted one. |
| Conversations.SetConversationContext | backend/services/conversations.py:72-79 | The stored context becomes exactly the new one, with no merge. |
| Conversations.GetActiveConversationsByContact | backend/services/conversations.py:81-86 | The result is exactly the ids of the contact's open conversations. |
| Reminders.DueReminders | backend/services/reminders.py:17-18 | The selected reminders are exactly those with no `sent_at`, status scheduled and `scheduled_at` ≤ now, in ascending id order. |
| Reminders.RunScheduledReminders | backend/services/reminders.py:14-33 | Only reminder rows change. Exactly the marked reminders get status sent and `sent_at` = the sweep start, and each had a phone. The k-th send went to the phone and appointment start of the k-th marked reminder. The count equals the number marked, which is at most the number due. On completion every due reminder with a phone is marked, the rest are untouched, and there is one send per mark. After an exception, the reminder where the sweep stopped and all later ones stay unmarked; every earlier due reminder with a phone was marked. A raising send is the one extra send, to that reminder's phone and start, and that call of the sender raised. Every send that led to a mark returned. |
| Reminders.ReturningSenderCompletes | backend/services/reminders.py:19-33 | Suppose the sender never raises and every due reminder's appointment exists. Then the sweep completes and marks exactly the due reminders with a phone. |
| Reminders.SecondSweepSkipsMarked | backend/services/reminders.py:17-31 | A second sweep at the same `now` sends nothing the first one marked. |
| Reminders.Sweeper | backend/services/reminders.py:19-33 | The `for` loop with early exit computes exactly the sweep. |
| Messages.GetConversationMessages | routers/messages.py:8-39 | A limit above 100 or a negative offset is rejected. A missing conversation surfaces as 500. On success the page's k-th message is the (offset + k)-th of the conversation's messages in chronological order, and the page holds min(limit, n − offset) of them (none when offset ≥ n or limit ≤ 0), so never more than 100. |
| Messages.FirstMissing | routers/messages.py:84-87 | Required fields are checked in the order conversation id, content, channel. The first missing one is reported. |
| Messages.SendManualMessage | routers/messages.py:69-123 | A missing field or conversation fails before any write, with status 500. Otherwise one outbound, pending message is appended, with clinic and contact taken from the conversation and the optional staff id; the conversation update that follows cannot be serialised, so the answer is always 500. |
| Messages.ManualSendStoresButFails | routers/messages.py:106-123 | A valid request stores its message and still answers 500, never "queued". |
| Messages.SendManualMessageIntended | routers/messages.py:69-120 | As intended: the same validation, then the message is appended, the conversation's `last_message_at` becomes the message's creation time, its count goes up by one, and the stored message is returned. |
| Messages.Bump | routers/messages.py:166-171 | Bumping a key adds one to its count and to the total, and leaves every other key's count unchanged. |
| Messages.Fold | routers/messages.py:158-171 | Inbound plus outbound equals the number of rows; any direction other than "inbound" counts as outbound. The per-channel and per-day counts each sum to the number of rows. |
| Messages.FoldCounts | routers/messages.py:166-171 | Each channel's count is the number of rows on that channel. Each day's count is the number of rows whose `created_at` starts with that day. |
| Messages.GetMessageStats | routers/messages.py:125-176 | `days` outside 1..90 is rejected. The total equals the number of fetched rows, and the counters sum to it. The inbound count is the number of inbound rows. Each channel's and each day's count is its number of rows. |

## Left out

- The WhatsApp Graph API send and the webhook plumbing. The send is an oracle that returns or raises; the webhook only wires the registry and the dialogue together.
- The overlap check, the `ilike` service lookup, and `strptime`'s calendar check. These are oracles (parameters), because they run inside the database or the standard library.
- The contents of `clinic_settings`. Only their presence matters, since `.single()` raises when the row is missing.
- Reply texts, `strftime` formatting and Spanish month names. Replies are modelled as the `Chatbot.Reply` kinds.
- Unicode case folding. `Text.Lower` lowers ASCII and Á É Í Ó Ú Ü Ñ only.
- Chatbot.ParseTimePreference: recognises ASCII digits only, while Python's `\d` also matches other Unicode digits.
- Chatbot.ParseDate: recognises ASCII digits only, for the same reason.
- Chatbot.Handle: a stored context with no `state` key, and the empty context `{}`, both read as `Initial`, so the dict-vs-`{}` distinction is not kept.
- Slots.BookAppointment: the new reminder's `sent_at` (null) and `status` (scheduled) are not set by the insert; they are assumed to be the table's column defaults (the schema is not part of this model), and the sweep's selection relies on them.
- Chatbot.Commit: writes are assumed to succeed, while the source silently ignores a failed context write.
- Messages.GetConversationMessages: a limit of 0 or below gives an empty page; what PostgREST returns for a range whose end precedes its start is not modelled.
- Failures of `.single()` on a missing row are treated as "no data" wherever the source tests the result. The exception is the reminder sweep, where a missing appointment aborts the sweep (the source indexes `None`).
- Concurrency between webhooks and sweeps, and the wall clock. `now` and `today` are parameters.
- The FastAPI routers for appointments and the scheduler, and the app assembly and client construction. These are thin wrappers with no logic of their own.

## Findings

| source | as written | input that shows it | evidently intended | confidence | as-written member | corrected member |
|---|---|---|---|---|---|---|
| routers/messages.py:109-112 | The conversation update puts `sb.rpc("increment_message_count", ...)`, an unexecuted request builder, into the JSON body of the update; serialising it raises, so `except Exception` answers 500 after the message was inserted. | Any body with `conversation_id`, `content` and `channel` of an existing conversation. | Increment the count, set `last_message_at` to the message's creation time, and answer with the queued message. | high, not executed | Messages.SendManualMessage (exhibited by Messages.ManualSendStoresButFails) | Messages.SendManualMessageIntended |

=== FILE: chatbot.dfy ===
/** The WhatsApp booking dialogue. One incoming text, the conversation's stored
    context and the clinic's fixed catalog decide the reply, the context
    writes and, on a confirmation, the appointment insert. Every regular
    expression the dialogue uses is an alternation of literals (a containment
    test), two FAQ patterns of the form `(a|b).*target`, or the date and hour
    patterns `\d{4}-\d{2}-\d{2}` and `\d{1,2}`. */
module Chatbot {
  import opened Wrappers
  import opened Clock
  import opened Store
  import opened Text
  import Search
  import Slots
  import Conversations

  // ---------------------------------------------------------------------------
  // Tables

  /** One treatment of the fixed catalog, keyed by its slug. */
  datatype Offer = Offer(slug: string, name: string, durationMin: int, price: string)

  /** The catalog in its declaration order (the order the service search tries). */
  const Catalog: seq<Offer> := [
    Offer("botox", "Botox Facial", 60, "desde $150.000"),
    Offer("limpieza", "Limpieza Facial", 90, "desde $80.000"),
    Offer("rellenos", "Rellenos Dérmicos", 45, "desde $200.000"),
    Offer("peeling", "Peeling Químico", 60, "desde $120.000")
  ]

  predicate InCatalog(slug: string)
  {
    exists i | 0 <= i < |Catalog| :: Catalog[i].slug == slug
  }

  const ConfirmWords: seq<string> := ["confirmar", "sí", "si", "ok", "vale"]
  const CancelWords: seq<string> := ["cancelar", "no", "cambiar", "reagendar"]
  const BookingWords: seq<string> := ["reservar", "agendar", "cita", "hora"]
  const GreetingWords: seq<string> := ["hola", "buenos", "buenas", "saludos"]
  const PriceWords: seq<string> := ["precio", "valen", "cuánto"]

  datatype Topic = BotoxPrice | CleaningPrice | OpeningHours | Location

  /** A FAQ pattern: an alternation of words, or an alternation followed later
      on the same line by a target word (`(a|b).*target`; `.` does not match a
      newline). */
  datatype Pattern = AnyOf(words: seq<string>) | AnyThen(words: seq<string>, target: string)

  datatype Faq = Faq(pattern: Pattern, topic: Topic)

  /** The FAQ table in its declaration order; the first matching entry answers. */
  const Faqs: seq<Faq> := [
    Faq(AnyThen(PriceWords, "botox"), BotoxPrice),
    Faq(AnyThen(PriceWords, "limpieza"), CleaningPrice),
    Faq(AnyOf(["horario", "abren", "cierran"]), OpeningHours),
    Faq(AnyOf(["dirección", "direccion", "dónde"]), Location)
  ]

  predicate NoNewline(t: string, a: int, b: int)
  {
    forall x | a <= x < b && 0 <= x < |t| :: t[x] != '\n'
  }

  /** `re.search(pattern, t)` for the FAQ patterns. */
  predicate Matches(t: string, p: Pattern)
  {
    match p
    case AnyOf(ws) => ContainsAny(t, ws)
    case AnyThen(ws, target) =>
      exists k, i, j | 0 <= k < |ws| && 0 <= i <= |t| && 0 <= j <= |t| ::
        At(t, ws[k], i) && i + |ws[k]| <= j && At(t, target, j) && NoNewline(t, i + |ws[k]|, j)
  }

  // ---------------------------------------------------------------------------
  // Well-formed contexts

  /** The context names a catalog treatment and its `services` row. */
  predicate HasService(c: Ctx)
  {
    c.selectedService.Some? && InCatalog(c.selectedService.value) && c.serviceId.Some?
  }

  /** What each stage of the dialogue has collected so far. */
  predicate WellFormed(c: Ctx)
  {
    match c.state
    case ServiceSelected => HasService(c)
    case DateSelected => HasService(c) && c.selectedDate.Some?
    case AppointmentPending => HasService(c) && c.selectedDate.Some? && c.selectedSlot.Some?
    case _ => true
  }

  // ---------------------------------------------------------------------------
  // Turns

  /** The reply the dialogue gives, one constructor per answer text. */
  datatype Reply =
    | ConfirmAck | CancelDone | CancelAck
    | ServiceMenu | FaqAnswer(topic: Topic) | Greeting | Fallback
    | ServiceChosen(offer: Offer) | ServiceUnavailable | ServiceLookupError | ServiceUnknown
    | DateAccepted(day: Day) | DateNotUnderstood
    | RestartAfterError | NoAvailability | SlotSummary(offer: Offer, slot: Slot)
    | SlotOptions(slots: seq<Slot>) | SlotLookupError
    | BookingDataError | Booked(offer: Offer, slot: Slot) | BookingError

  /** The outcome of the `services` lookup by clinic and display name. */
  datatype Lookup = Found(id: Id) | NotFound | LookupRaised

  /** What a turn needs from outside the text and the context: the clinic and
      contact, today's date, and the store queries the model does not evaluate
      (the name lookup, the calendar check of a `YYYY-MM-DD` string, the
      settings row, the overlap check, and which booking insert fails). */
  datatype Env = Env(clinicId: Id, contactId: Id, today: Day,
                     lookupService: (Id, string) -> Lookup,
                     calendar: string -> Option<Day>,
                     hasSettings: bool,
                     overlap: Slots.OverlapOracle,
                     bookingFault: Slots.InsertFault)

  /** A turn: the reply, the contexts written in order, and the store after the turn. */
  datatype Turn = Turn(reply: Reply, writes: seq<Ctx>, db: Db)

  const AwaitingCtx: Ctx := Ctx(AwaitingService, None, None, None, None)

  /** The text as the dialogue reads it: lower-cased, then stripped of
      surrounding whitespace. */
  function Normalize(text: string): string
  {
    Strip(Lower(text))
  }

  predicate ConfirmIntent(t: string) { ContainsAny(t, ConfirmWords) }
  predicate CancelIntent(t: string) { ContainsAny(t, CancelWords) }
  predicate BookingIntent(t: string) { ContainsAny(t, BookingWords) }
  predicate GreetingIntent(t: string) { ContainsAny(t, GreetingWords) }

  /** The states in which a cancellation clears the context. */
  predicate ResetsOnCancel(s: State)
  {
    s == ServiceSelected || s == AppointmentPending
  }

  /** `handle`: confirmation words first, then cancellation words, then the
      handler of the current state. */
  function Handle(text: string, ctx: Ctx, db: Db, env: Env): (r: Turn)
    ensures |r.writes| <= 2
    ensures r.db.conversations == db.conversations
    ensures r.db != db ==> ConfirmIntent(Normalize(text)) && ctx.state == AppointmentPending
    ensures ConfirmIntent(Normalize(text)) && ctx.state != AppointmentPending ==> r == Turn(ConfirmAck, [], db)
    ensures ConfirmIntent(Normalize(text)) && ctx.state == AppointmentPending ==> r == ConfirmAppointment(ctx, db, env)
    ensures !ConfirmIntent(Normalize(text)) && CancelIntent(Normalize(text)) ==>
      r == (if ResetsOnCancel(ctx.state) then Turn(CancelDone, [InitialCtx], db) else Turn(CancelAck, [], db))
    ensures !ConfirmIntent(Normalize(text)) && !CancelIntent(Normalize(text)) ==> r == Dispatch(Normalize(text), ctx, db, env)
    ensures r.reply == Greeting ==> !ConfirmIntent(Normalize(text)) && !CancelIntent(Normalize(text))
  {
    var t := Normalize(text);
    if ConfirmIntent(t) then
      if ctx.state == AppointmentPending then ConfirmAppointment(ctx, db, env) else Turn(ConfirmAck, [], db)
    else if CancelIntent(t) then
      if ResetsOnCancel(ctx.state) then Turn(CancelDone, [InitialCtx], db) else Turn(CancelAck, [], db)
    else Dispatch(t, ctx, db, env)
  }

  /** The state handlers of `handle`. A pending appointment or an unknown
      state is reset to the initial context and answered as the initial
      state, so any text that neither confirms nor cancels drops the pending
      slot. */
  function Dispatch(t: string, ctx: Ctx, db: Db, env: Env): (r: Turn)
    ensures ctx.state == Initial ==> r == HandleInitial(t, db)
    ensures ctx.state == AwaitingService ==> r == HandleServiceSelection(t, db, env)
    ensures ctx.state == ServiceSelected ==> r == HandleDateSelection(t, ctx, db, env)
    ensures ctx.state == DateSelected ==> r == HandleTimeSelection(t, ctx, db, env)
    ensures r.db == db
    ensures |r.writes| <= 2
    ensures (ctx.state == AppointmentPending || ctx.state.Unrecognized?) ==>
      (r.writes != [] && r.writes[0] == InitialCtx && r.writes[|r.writes| - 1].selectedSlot.None?)
    ensures (ctx.state == AppointmentPending || ctx.state.Unrecognized?) ==>
      r.reply == HandleInitial(t, db).reply && r.writes == [InitialCtx] + HandleInitial(t, db).writes
  {
    match ctx.state
    case Initial => HandleInitial(t, db)
    case AwaitingService => HandleServiceSelection(t, db, env)
    case ServiceSelected => HandleDateSelection(t, ctx, db, env)
    case DateSelected => HandleTimeSelection(t, ctx, db, env)
    case _ =>
      var r := HandleInitial(t, db);
      Turn(r.reply, [InitialCtx] + r.writes, r.db)
  }

  /** Every context a turn writes is well formed when the one it read was:
      each stage adds exactly the field it collects to what the previous
      stage stored. */
  lemma HandlePreservesWellFormed(text: string, ctx: Ctx, db: Db, env: Env)
    requires WellFormed(ctx)
    ensures forall w :: w in Handle(text, ctx, db, env).writes ==> WellFormed(w)
  {
    DispatchPreservesWellFormed(Normalize(text), ctx, db, env);
  }

  lemma DispatchPreservesWellFormed(t: string, ctx: Ctx, db: Db, env: Env)
    requires WellFormed(ctx)
    ensures forall w :: w in Dispatch(t, ctx, db, env).writes ==> WellFormed(w)
  {
    match ctx.state
    case Initial =>
    case AwaitingService =>
    case ServiceSelected =>
    case DateSelected =>
    case _ =>
      var r := HandleInitial(t, db);
      assert Dispatch(t, ctx, db, env).writes == [InitialCtx] + r.writes;
  }

  lemma DispatchSelectsFirstMention(t: string, ctx: Ctx, db: Db, env: Env)
    ensures forall w :: w in Dispatch(t, ctx, db, env).writes && w.state == ServiceSelected ==>
      ctx.state == AwaitingService && exists i :: FirstMentioned(t, i) && w.selectedService == Some(Catalog[i].slug)
  {
    match ctx.state
    case Initial =>
    case AwaitingService =>
    case ServiceSelected =>
    case DateSelected =>
    case _ =>
      var r := HandleInitial(t, db);
      assert Dispatch(t, ctx, db, env).writes == [InitialCtx] + r.writes;
  }

  /** A `service_selected` context is written only for the first catalog
      entry the text mentions, and only when the text has no cancellation
      word. */
  lemma SelectionWritesFirstMention(text: string, ctx: Ctx, db: Db, env: Env)
    ensures forall w :: w in Handle(text, ctx, db, env).writes && w.state == ServiceSelected ==>
      !CancelIntent(Normalize(text))
      && exists i :: FirstMentioned(Normalize(text), i) && w.selectedService == Some(Catalog[i].slug)
  {
    DispatchSelectsFirstMention(Normalize(text), ctx, db, env);
  }

  // ---------------------------------------------------------------------------
  // Initial state

  /** No FAQ pattern matches `t`. */
  predicate NoFaq(t: string)
  {
    forall i :: 0 <= i < |Faqs| ==> !Matches(t, Faqs[i].pattern)
  }

  /** `_handle_initial_state`: a booking word opens the service menu; otherwise
      the first matching FAQ answers; otherwise a greeting word is greeted;
      otherwise the generic help text. */
  function HandleInitial(t: string, db: Db): (r: Turn)
    ensures forall w :: w in r.writes ==> WellFormed(w)
    ensures r.db == db
    ensures BookingIntent(t) ==> r.reply == ServiceMenu && r.writes == [AwaitingCtx]
    ensures !BookingIntent(t) ==> r.writes == []
    ensures r.reply.FaqAnswer? ==>
      (!BookingIntent(t) &&
       exists i | 0 <= i < |Faqs| :: Faqs[i].topic == r.reply.topic && Matches(t, Faqs[i].pattern)
         && forall j :: 0 <= j < i ==> !Matches(t, Faqs[j].pattern))
    ensures !BookingIntent(t) && !NoFaq(t) ==> r.reply.FaqAnswer?
    ensures r.reply == Greeting <==> !BookingIntent(t) && NoFaq(t) && GreetingIntent(t)
    ensures r.reply == Fallback <==> !BookingIntent(t) && NoFaq(t) && !GreetingIntent(t)
  {
    if BookingIntent(t) then Turn(ServiceMenu, [AwaitingCtx], db)
    else
      match Search.First(Faqs, (f: Faq) => Matches(t, f.pattern))
      case Some(i) => Turn(FaqAnswer(Faqs[i].topic), [], db)
      case None => if GreetingIntent(t) then Turn(Greeting, [], db) else Turn(Fallback, [], db)
  }

  // ---------------------------------------------------------------------------
  // Service selection

  /** The text mentions a catalog entry when it contains the entry's slug or
      its lower-cased display name. */
  predicate Mentions(t: string, o: Offer)
  {
    Contains(t, o.slug) || Contains(t, Lower(o.name))
  }

  /** `o` is the first catalog entry `t` mentions. */
  predicate FirstMentioned(t: string, i: int)
  {
    0 <= i < |Catalog| && Mentions(t, Catalog[i])
    && forall j :: 0 <= j < i ==> !Mentions(t, Catalog[j])
  }

  /** At most one catalog entry is the first one mentioned. */
  lemma FirstMentionedUnique(t: string, i: int)
    requires FirstMentioned(t, i)
    ensures forall j :: FirstMentioned(t, j) ==> j == i
  {
  }

  /** `_handle_service_selection`: the first catalog entry the text mentions is
      looked up by display name in the clinic's `services`; a found row selects
      it with exactly the slug and the row id in the new context. */
  function HandleServiceSelection(t: string, db: Db, env: Env): (r: Turn)
    ensures forall w :: w in r.writes ==> WellFormed(w)
    ensures r.db == db
    ensures r.reply == ServiceUnknown <==> forall j :: 0 <= j < |Catalog| ==> !Mentions(t, Catalog[j])
    ensures r.writes != [] <==> r.reply.ServiceChosen?
    ensures r.reply.ServiceChosen? ==>
      exists i :: FirstMentioned(t, i) && r.reply.offer == Catalog[i]
        && env.lookupService(env.clinicId, Catalog[i].name).Found?
        && r.writes == [Ctx(ServiceSelected, Some(Catalog[i].slug),
                            Some(env.lookupService(env.clinicId, Catalog[i].name).id), None, None)]
    ensures r.reply == ServiceUnavailable ==>
      exists i :: FirstMentioned(t, i) && env.lookupService(env.clinicId, Catalog[i].name) == NotFound
    ensures r.reply == ServiceLookupError ==>
      exists i :: FirstMentioned(t, i) && env.lookupService(env.clinicId, Catalog[i].name) == LookupRaised
    ensures forall i :: FirstMentioned(t, i) && env.lookupService(env.clinicId, Catalog[i].name).Found? ==>
      && r.reply == ServiceChosen(Catalog[i])
      && r.writes == [Ctx(ServiceSelected, Some(Catalog[i].slug),
                          Some(env.lookupService(env.clinicId, Catalog[i].name).id), None, None)]
    ensures forall i :: FirstMentioned(t, i) && env.lookupService(env.clinicId, Catalog[i].name) == NotFound ==>
      r == Turn(ServiceUnavailable, [], db)
    ensures forall i :: FirstMentioned(t, i) && env.lookupService(env.clinicId, Catalog[i].name) == LookupRaised ==>
      r == Turn(ServiceLookupError, [], db)
  {
    match Search.First(Catalog, (o: Offer) => Mentions(t, o))
    case None => Turn(ServiceUnknown, [], db)
    case Some(i) =>
      assert FirstMentioned(t, i);
      FirstMentionedUnique(t, i);
      var o := Catalog[i];
      match env.lookupService(env.clinicId, o.name)
      case Found(id) => Turn(ServiceChosen(o), [Ctx(ServiceSelected, Some(o.slug), Some(id), None, None)], db)
      case NotFound => Turn(ServiceUnavailable, [], db)
      case LookupRaised => Turn(ServiceLookupError, [], db)
  }

  // ---------------------------------------------------------------------------
  // Date selection

  /** Days from `today` to the next `target` weekday, counting a same-weekday
      `today` as a full week ahead. */
  function DaysAhead(today: Day, target: int): (r: int)
    requires 0 <= target < 7
    ensures 1 <= r <= 7
    ensures Weekday(today + r) == target
  {
    var a := target - Weekday(today);
    var r := if a <= 0 then a + 7 else a;
    assert today + r == (today - today % 7) + (target + (if a <= 0 then 7 else 0));
    assert (today - today % 7) % 7 == 0;
    r
  }

  /** `\d{4}-\d{2}-\d{2}` matches at `i`. */
  predicate IsoAt(t: string, i: int)
  {
    0 <= i && i + 10 <= |t|
    && IsDigit(t[i]) && IsDigit(t[i + 1]) && IsDigit(t[i + 2]) && IsDigit(t[i + 3])
    && t[i + 4] == '-' && IsDigit(t[i + 5]) && IsDigit(t[i + 6])
    && t[i + 7] == '-' && IsDigit(t[i + 8]) && IsDigit(t[i + 9])
  }

  /** The leftmost match of `\d{4}-\d{2}-\d{2}` starts at `i`. */
  predicate LeadingIso(t: string, i: int)
  {
    IsoAt(t, i) && forall j :: 0 <= j < i ==> !IsoAt(t, j)
  }

  /** The text names a day in words. */
  predicate DayWord(t: string)
  {
    Contains(t, "mañana") || Contains(t, "hoy") || Contains(t, "lunes") || Contains(t, "martes")
  }

  /** `_parse_date_from_text`: "mañana", "hoy", "lunes" and "martes" in that
      order of precedence; otherwise the leftmost `YYYY-MM-DD`, if the calendar
      accepts it. */
  function ParseDate(t: string, today: Day, calendar: string -> Option<Day>): (r: Option<Day>)
    ensures Contains(t, "mañana") ==> r == Some(today + 1)
    ensures !Contains(t, "mañana") && Contains(t, "hoy") ==> r == Some(today)
    ensures !Contains(t, "mañana") && !Contains(t, "hoy") && Contains(t, "lunes") ==>
      r.Some? && 1 <= r.value - today <= 7 && Weekday(r.value) == 0
    ensures !Contains(t, "mañana") && !Contains(t, "hoy") && !Contains(t, "lunes") && Contains(t, "martes") ==>
      r.Some? && 1 <= r.value - today <= 7 && Weekday(r.value) == 1
    ensures !DayWord(t) && r.Some? ==> exists i :: LeadingIso(t, i) && calendar(t[i..i + 10]) == r
    ensures !DayWord(t) && r.None? ==> forall i :: LeadingIso(t, i) ==> calendar(t[i..i + 10]).None?
  {
    if Contains(t, "mañana") then Some(today + 1)
    else if Contains(t, "hoy") then Some(today)
    else if Contains(t, "lunes") then Some(today + DaysAhead(today, 0))
    else if Contains(t, "martes") then Some(today + DaysAhead(today, 1))
    else
      var p := (k: nat) => IsoAt(t, k);
      match Search.FirstPosition(|t|, p, 0)
      case None =>
        assert forall i :: IsoAt(t, i) ==> p(i);
        None
      case Some(i) =>
        assert LeadingIso(t, i) by {
          forall j | 0 <= j < i ensures !IsoAt(t, j) { assert !p(j); }
        }
        assert forall i' :: LeadingIso(t, i') ==> i' == i;
        calendar(t[i..i + 10])
  }

  /** `_handle_date_selection`: a parsed date keeps the whole context and
      moves it to `date_selected`. */
  function HandleDateSelection(t: string, ctx: Ctx, db: Db, env: Env): (r: Turn)
    ensures ctx.state == ServiceSelected && WellFormed(ctx) ==> forall w :: w in r.writes ==> WellFormed(w)
    ensures r.db == db
    ensures ParseDate(t, env.today, env.calendar).None? ==> r == Turn(DateNotUnderstood, [], db)
    ensures ParseDate(t, env.today, env.calendar).Some? ==>
      var d := ParseDate(t, env.today, env.calendar).value;
      r.reply == DateAccepted(d) && r.writes == [ctx.(state := DateSelected, selectedDate := Some(d))]
  {
    match ParseDate(t, env.today, env.calendar)
    case None => Turn(DateNotUnderstood, [], db)
    case Some(d) => Turn(DateAccepted(d), [ctx.(state := DateSelected, selectedDate := Some(d))], db)
  }

  // ---------------------------------------------------------------------------
  // Time selection

  /** The hour `\d{1,2}` reads at a digit at `i` (greedy: two digits when there are two). */
  function HourAt(t: string, i: int): (h: int)
    requires 0 <= i < |t| && IsDigit(t[i])
    ensures 0 <= h <= 99
    ensures (i + 1 < |t| && IsDigit(t[i + 1])) ==> h == 10 * DigitValue(t[i]) + DigitValue(t[i + 1])
    ensures !(i + 1 < |t| && IsDigit(t[i + 1])) ==> h == DigitValue(t[i])
  {
    if i + 1 < |t| && IsDigit(t[i + 1]) then 10 * DigitValue(t[i]) + DigitValue(t[i + 1])
    else DigitValue(t[i])
  }

  predicate DigitAt(t: string, i: int)
  {
    0 <= i < |t| && IsDigit(t[i])
  }

  /** The leftmost digit of `t` is at `i`. */
  predicate LeadingDigit(t: string, i: int)
  {
    DigitAt(t, i) && forall j :: 0 <= j < i ==> !DigitAt(t, j)
  }

  predicate DaypartWord(t: string)
  {
    Contains(t, "mañana") || Contains(t, "tarde") || (Contains(t, "medio") && Contains(t, "día"))
  }

  /** `_parse_time_preference`: "mañana" is 10, "tarde" 15, "medio" with
      "día" 12; otherwise the hour of the leftmost digit run, kept only
      within 8..19. */
  function ParseTimePreference(t: string): (r: Option<int>)
    ensures r.Some? ==> 8 <= r.value <= 19
    ensures Contains(t, "mañana") ==> r == Some(10)
    ensures !Contains(t, "mañana") && Contains(t, "tarde") ==> r == Some(15)
    ensures !Contains(t, "mañana") && !Contains(t, "tarde") && Contains(t, "medio") && Contains(t, "día") ==>
      r == Some(12)
    ensures !DaypartWord(t) ==> (r.Some? <==> exists i :: LeadingDigit(t, i) && 8 <= HourAt(t, i) <= 19)
    ensures !DaypartWord(t) && r.Some? ==> forall i :: LeadingDigit(t, i) ==> r.value == HourAt(t, i)
  {
    if Contains(t, "mañana") then Some(10)
    else if Contains(t, "tarde") then Some(15)
    else if Contains(t, "medio") && Contains(t, "día") then Some(12)
    else
      var p := (k: nat) => DigitAt(t, k);
      match Search.FirstPosition(|t|, p, 0)
      case None =>
        assert forall i :: DigitAt(t, i) ==> p(i);
        None
      case Some(i) =>
        assert LeadingDigit(t, i) by {
          forall j | 0 <= j < i ensures !DigitAt(t, j) { assert !p(j); }
        }
        assert forall i' :: LeadingDigit(t, i') ==> i' == i;
        var h := HourAt(t, i);
        if 8 <= h <= 19 then Some(h) else None
  }

  /** A slot within the one-hour tolerance of the preferred hour. */
  predicate Near(s: Slot, pref: int)
  {
    -1 <= HourOf(s.startAt) - pref <= 1
  }

  /** The context has what the time step needs. */
  predicate HasServiceAndDate(ctx: Ctx)
  {
    ctx.serviceId.Some? && ctx.selectedDate.Some?
  }

  function SlotsFor(ctx: Ctx, db: Db, env: Env): Result<seq<Slot>, Slots.SlotError>
    requires HasServiceAndDate(ctx)
  {
    Slots.GetSlots(db, env.hasSettings, env.clinicId, ctx.serviceId.value, ctx.selectedDate.value, env.overlap)
  }

  /** `min(5, |s|)` leading slots: the options listed. */
  function Options(s: seq<Slot>): (r: seq<Slot>)
    ensures |r| <= 5 && r <= s
    ensures |s| >= 5 ==> |r| == 5
    ensures |s| < 5 ==> r == s
  {
    if |s| <= 5 then s else s[..5]
  }

  /** `_handle_time_selection`: with a service and a date, lists the day's free
      slots; the first slot near the preferred hour becomes the pending
      appointment; otherwise at most five options are offered. A failed slot
      query, or a pending slot whose service slug is not in the catalog,
      resets the context. */
  function HandleTimeSelection(t: string, ctx: Ctx, db: Db, env: Env): (r: Turn)
    ensures r.db == db
    ensures forall w :: w in r.writes ==>
      w == InitialCtx || (w.selectedSlot.Some? && w == ctx.(state := AppointmentPending, selectedSlot := w.selectedSlot))
    ensures !HasServiceAndDate(ctx) ==> r == Turn(RestartAfterError, [InitialCtx], db)
    ensures HasServiceAndDate(ctx) && SlotsFor(ctx, db, env).Failure? ==> r == Turn(SlotLookupError, [InitialCtx], db)
    ensures HasServiceAndDate(ctx) && SlotsFor(ctx, db, env) == Success([]) ==> r == Turn(NoAvailability, [], db)
    ensures HasServiceAndDate(ctx) && SlotsFor(ctx, db, env).Success? && SlotsFor(ctx, db, env).value != [] ==>
      r == ChooseTime(t, ctx, SlotsFor(ctx, db, env).value, db)
  {
    if !HasServiceAndDate(ctx) then Turn(RestartAfterError, [InitialCtx], db)
    else
      match SlotsFor(ctx, db, env)
      case Failure(_) => Turn(SlotLookupError, [InitialCtx], db)
      case Success(slots) =>
        if slots == [] then Turn(NoAvailability, [], db)
        else ChooseTime(t, ctx, slots, db)
  }

  /** The first slot near the preferred hour, if there is a preference. */
  function NearSlot(slots: seq<Slot>, pref: Option<int>): (r: Option<nat>)
    ensures r.Some? <==> pref.Some? && exists i :: 0 <= i < |slots| && Near(slots[i], pref.value)
    ensures r.Some? ==> r.value < |slots| && Near(slots[r.value], pref.value)
    ensures r.Some? ==> forall j :: 0 <= j < r.value ==> !Near(slots[j], pref.value)
  {
    if pref.None? then None
    else
      var near := (s: Slot) => Near(s, pref.value);
      var r := Search.First(slots, near);
      if r.None? then
        assert forall i :: 0 <= i < |slots| ==> !near(slots[i]);
        None
      else r
  }

  /** The part of `_handle_time_selection` after a non-empty slot list: the
      first slot within an hour of the preference becomes the pending
      appointment (and an unknown slug then resets the context); with no
      such slot, at most five options are listed. */
  function ChooseTime(t: string, ctx: Ctx, slots: seq<Slot>, db: Db): (r: Turn)
    requires slots != []
    ensures r.db == db
    ensures forall w :: w in r.writes ==>
      w == InitialCtx || (w.selectedSlot.Some? && w == ctx.(state := AppointmentPending, selectedSlot := w.selectedSlot))
    ensures r.writes != [] ==> r.writes[|r.writes| - 1] == InitialCtx || r.reply.SlotSummary?
    ensures ParseTimePreference(t).Some? ==>
      var pref := ParseTimePreference(t).value;
      forall i :: 0 <= i < |slots| && Near(slots[i], pref) && (forall j :: 0 <= j < i ==> !Near(slots[j], pref)) ==>
        var pending := ctx.(state := AppointmentPending, selectedSlot := Some(slots[i]));
        r == match OfferBySlug(ctx.selectedService)
             case Some(o) => Turn(SlotSummary(o, slots[i]), [pending], db)
             case None => Turn(SlotLookupError, [pending, InitialCtx], db)
    ensures ParseTimePreference(t).None? || (forall s :: s in slots ==> !Near(s, ParseTimePreference(t).value)) ==>
      r == Turn(SlotOptions(Options(slots)), [], db)
    ensures r.reply.SlotSummary? ==>
      && ctx.selectedService == Some(r.reply.offer.slug) && r.reply.offer in Catalog
      && r.writes == [ctx.(state := AppointmentPending, selectedSlot := Some(r.reply.slot))]
      && ParseTimePreference(t).Some?
      && exists i :: 0 <= i < |slots| && slots[i] == r.reply.slot
           && Near(r.reply.slot, ParseTimePreference(t).value)
           && forall j :: 0 <= j < i ==> !Near(slots[j], ParseTimePreference(t).value)
    ensures r.reply.SlotOptions? ==>
      && r.reply.slots == Options(slots) && r.reply.slots != [] && r.writes == []
      && (ParseTimePreference(t).Some? ==> forall s :: s in slots ==> !Near(s, ParseTimePreference(t).value))
  {
    var pref := ParseTimePreference(t);
    match NearSlot(slots, pref)
    case None =>
      assert pref.Some? ==> forall s :: s in slots ==> !Near(s, pref.value);
      Turn(SlotOptions(Options(slots)), [], db)
    case Some(i) =>
      assert forall k :: (0 <= k < |slots| && Near(slots[k], pref.value)
                          && forall j :: 0 <= j < k ==> !Near(slots[j], pref.value)) ==> k == i;
      var pending := ctx.(state := AppointmentPending, selectedSlot := Some(slots[i]));
      match OfferBySlug(ctx.selectedService)
      case Some(o) => Turn(SlotSummary(o, slots[i]), [pending], db)
      case None => Turn(SlotLookupError, [pending, InitialCtx], db)
  }

  /** `SERVICIOS_DISPONIBLES[slug]`, which raises when the slug is absent. */
  function OfferBySlug(slug: Option<string>): (r: Option<Offer>)
    ensures r.Some? <==> slug.Some? && InCatalog(slug.value)
    ensures r.Some? ==> r.value in Catalog && r.value.slug == slug.value
  {
    if slug.None? then None
    else
      match Search.First(Catalog, (o: Offer) => o.slug == slug.value)
      case None => None
      case Some(i) => Some(Catalog[i])
  }

  // ---------------------------------------------------------------------------
  // Confirmation

  /** The context holds everything a booking needs: a chosen slot, a service
      id and a non-empty treatment slug. */
  predicate BookingData(ctx: Ctx)
  {
    ctx.selectedSlot.Some? && ctx.serviceId.Some? && ctx.selectedService.Some? && ctx.selectedService.value != ""
  }

  function PayloadOf(ctx: Ctx, env: Env): Slots.Payload
    requires BookingData(ctx)
  {
    Slots.Payload(env.clinicId, env.contactId, ctx.serviceId.value,
                  ctx.selectedSlot.value.startAt, ctx.selectedSlot.value.endAt)
  }

  /** `_confirm_appointment`: books the pending slot for the contact; only a
      completed booking clears the context, and the confirmation names the
      treatment only when its slug is in the catalog. */
  function ConfirmAppointment(ctx: Ctx, db: Db, env: Env): (r: Turn)
    ensures !BookingData(ctx) ==> r == Turn(BookingDataError, [], db)
    ensures BookingData(ctx) ==> r.db == Slots.BookAppointment(db, PayloadOf(ctx, env), env.bookingFault).db
    ensures r.writes != [] <==> BookingData(ctx) && env.bookingFault == Slots.NoFault
    ensures r.writes != [] ==> r.writes == [InitialCtx]
    ensures r.reply in {BookingDataError, BookingError} || r.reply.Booked?
    ensures r.reply.Booked? ==>
      && BookingData(ctx) && env.bookingFault == Slots.NoFault
      && r.reply.slot == ctx.selectedSlot.value && r.reply.offer in Catalog
      && r.reply.offer.slug == ctx.selectedService.value
    ensures BookingData(ctx) && env.bookingFault == Slots.NoFault && InCatalog(ctx.selectedService.value) ==>
      r.reply.Booked?
    ensures r.reply == BookingDataError <==> !BookingData(ctx)
    ensures BookingData(ctx) && (env.bookingFault != Slots.NoFault || !InCatalog(ctx.selectedService.value)) ==>
      r.reply == BookingError
    ensures |r.db.appointments| <= |db.appointments| + 1
    ensures r.db.conversations == db.conversations
  {
    if !BookingData(ctx) then Turn(BookingDataError, [], db)
    else
      var b := Slots.BookAppointment(db, PayloadOf(ctx, env), env.bookingFault);
      if b.outcome.Failure? then Turn(BookingError, [], b.db)
      else
        match OfferBySlug(ctx.selectedService)
        case Some(o) => Turn(Booked(o, ctx.selectedSlot.value), [InitialCtx], b.db)
        case None => Turn(BookingError, [InitialCtx], b.db)
  }

  /** Confirming a well-formed pending appointment whose inserts succeed
      books exactly the pending slot for the contact, schedules its reminder
      at the slot's start, clears the context and names the treatment
      (`Handle` confirms through `ConfirmAppointment` in that state). */
  lemma ConfirmBooksPendingSlot(ctx: Ctx, db: Db, env: Env)
    requires WellFormed(ctx) && ctx.state == AppointmentPending && env.bookingFault == Slots.NoFault
    ensures var r := ConfirmAppointment(ctx, db, env);
      && r.reply == Booked(r.reply.offer, ctx.selectedSlot.value)
      && r.reply.offer.slug == ctx.selectedService.value
      && r.writes == [InitialCtx]
      && r.db.appointments == db.appointments + [Appointment(env.clinicId, env.contactId, ctx.serviceId.value,
           ctx.selectedSlot.value.startAt, ctx.selectedSlot.value.endAt, Slots.ConfirmedStatus, Slots.WhatsApp)]
      && r.db.reminders == db.reminders + [Reminder(env.clinicId, |db.appointments|, Slots.WhatsApp,
           ctx.selectedSlot.value.startAt, None, Scheduled)]
  {
    var slug := ctx.selectedService.value;
    var i :| 0 <= i < |Catalog| && Catalog[i].slug == slug;
    assert slug != "";
  }

  // ---------------------------------------------------------------------------
  // Reading and storing the context

  /** The stored `context_data` of the conversation; no conversation id, or a
      missing conversation, reads as the empty context. */
  function LoadContext(db: Db, conv: Option<Id>): (c: Ctx)
    ensures conv.Some? && conv.value < |db.conversations| ==> c == db.conversations[conv.value].context
    ensures conv.None? || conv.value >= |db.conversations| ==> c == InitialCtx
  {
    if conv.Some? && conv.value < |db.conversations| then db.conversations[conv.value].context
    else InitialCtx
  }

  /** `_update_context` for each write in turn; without a conversation id
      every write is skipped. */
  function Commit(db: Db, conv: Option<Id>, writes: seq<Ctx>, now: Instant): (r: Db)
    decreases |writes|
    ensures Conversations.OnlyConversationsChange(db, r)
    ensures |r.conversations| == |db.conversations|
    ensures forall j :: 0 <= j < |db.conversations| && (conv.None? || j != conv.value) ==>
      r.conversations[j] == db.conversations[j]
    ensures conv.Some? && conv.value < |db.conversations| && writes != [] ==>
      r.conversations[conv.value] == db.conversations[conv.value].(context := writes[|writes| - 1], updatedAt := now)
    ensures conv.None? || writes == [] ==> r == db
  {
    if conv.None? || writes == [] then db
    else Commit(Conversations.SetConversationContext(db, conv.value, writes[0], now), conv, writes[1..], now)
  }

  /** One inbound text on a conversation: load its context, run the
      dialogue, store the booking and the context writes. Besides the
      conversation's own row only the booking tables can change, and only
      when a pending appointment is confirmed; the stored context is the
      dialogue's last write, or the old row when it wrote nothing. */
  function Respond(db: Db, conv: Option<Id>, text: string, env: Env, now: Instant): (r: (Reply, Db))
    ensures r.0 == Handle(text, LoadContext(db, conv), db, env).reply
    ensures r.1.clinics == db.clinics && r.1.contacts == db.contacts && r.1.channels == db.channels
      && r.1.messages == db.messages && r.1.services == db.services
    ensures (r.1.appointments != db.appointments || r.1.reminders != db.reminders) ==>
      ConfirmIntent(Normalize(text)) && LoadContext(db, conv).state == AppointmentPending
    ensures var h := Handle(text, LoadContext(db, conv), db, env);
      r.1.appointments == h.db.appointments && r.1.reminders == h.db.reminders
    ensures |r.1.conversations| == |db.conversations|
    ensures forall j :: 0 <= j < |db.conversations| && (conv.None? || j != conv.value) ==>
      r.1.conversations[j] == db.conversations[j]
    ensures var writes := Handle(text, LoadContext(db, conv), db, env).writes;
      conv.Some? && conv.value < |db.conversations| && writes != [] ==>
        r.1.conversations[conv.value] == db.conversations[conv.value].(context := writes[|writes| - 1], updatedAt := now)
    ensures Handle(text, LoadContext(db, conv), db, env).writes == [] ==> r.1.conversations == db.conversations
  {
    var turn := Handle(text, LoadContext(db, conv), db, env);
    (turn.reply, Commit(turn.db, conv, turn.writes, now))
  }

  /** Every stored context is well formed. */
  predicate StoredWellFormed(db: Db)
  {
    forall j :: 0 <= j < |db.conversations| ==> WellFormed(db.conversations[j].context)
  }

  /** Stored contexts stay well formed across any number of turns on any
      conversations. */
  lemma RespondKeepsStoredWellFormed(db: Db, conv: Option<Id>, text: string, env: Env, now: Instant)
    requires StoredWellFormed(db)
    ensures StoredWellFormed(Respond(db, conv, text, env, now).1)
  {
    var ctx := LoadContext(db, conv);
    var turn := Handle(text, ctx, db, env);
    HandlePreservesWellFormed(text, ctx, db, env);
    assert turn.db.conversations == db.conversations;
    CommitKeepsStoredWellFormed(turn.db, conv, turn.writes, now);
  }

  /** Committing well-formed writes keeps the stored contexts well formed. */
  lemma CommitKeepsStoredWellFormed(db: Db, conv: Option<Id>, writes: seq<Ctx>, now: Instant)
    requires StoredWellFormed(db)
    requires forall w :: w in writes ==> WellFormed(w)
    ensures StoredWellFormed(Commit(db, conv, writes, now))
  {
    if conv.Some? && conv.value < |db.conversations| && writes != [] {
      assert writes[|writes| - 1] in writes;
    }
  }

  // ---------------------------------------------------------------------------
  // What the word matching implies

  lemma ConfirmWord(t: string, w: string, k: int)
    requires 0 <= k < |ConfirmWords| && ConfirmWords[k] == w && Contains(t, w)
    ensures ConfirmIntent(t)
  {
  }

  /** "valen" contains "vale": a price question such as "cuánto valen ..."
      reads as a confirmation, so outside a pending appointment it is
      acknowledged and neither price FAQ answers it. */
  lemma ValenReadsAsConfirmation(text: string, ctx: Ctx, db: Db, env: Env)
    requires Contains(Normalize(text), "valen") && ctx.state != AppointmentPending
    ensures Handle(text, ctx, db, env) == Turn(ConfirmAck, [], db)
  {
    ValenConfirms(Normalize(text));
  }

  lemma ValenConfirms(t: string)
    requires Contains(t, "valen")
    ensures ConfirmIntent(t)
  {
    assert At("valen", "vale", 0);
    ContainsTransitive(t, "valen", "vale");
    ConfirmWord(t, "vale", 4);
  }

  /** "buenos" contains "no": "buenos días" is read as a cancellation (or as
      a confirmation, when it also holds a confirmation word) and is never
      greeted. */
  lemma BuenosReadsAsCancel(text: string, ctx: Ctx, db: Db, env: Env)
    requires Contains(Normalize(text), "buenos")
    ensures Handle(text, ctx, db, env).reply != Greeting
    ensures !ConfirmIntent(Normalize(text)) ==> Handle(text, ctx, db, env).reply in {CancelDone, CancelAck}
  {
    BuenosCancels(Normalize(text));
  }

  lemma BuenosCancels(t: string)
    requires Contains(t, "buenos")
    ensures CancelIntent(t)
  {
    assert At("buenos", "no", 3);
    ContainsTransitive(t, "buenos", "no");
    assert CancelWords[1] == "no";
  }

  /** "horario" contains "hora": asking for the opening hours in the initial
      state opens the booking menu instead of the hours FAQ. */
  lemma HoursQuestionOpensMenu(text: string, ctx: Ctx, db: Db, env: Env)
    requires ctx.state == Initial && Contains(Normalize(text), "horario")
    requires !ConfirmIntent(Normalize(text)) && !CancelIntent(Normalize(text))
    ensures Handle(text, ctx, db, env) == Turn(ServiceMenu, [AwaitingCtx], db)
  {
    HorarioBooks(Normalize(text));
  }

  lemma HorarioBooks(t: string)
    requires Contains(t, "horario")
    ensures BookingIntent(t)
  {
    assert At("horario", "hora", 0);
    ContainsTransitive(t, "horario", "hora");
    assert BookingWords[3] == "hora";
  }

  /** Both ways of naming "rellenos" contain "no", so the cancellation check
      answers first: no turn ever selects that treatment. */
  lemma RellenosNeverSelected(text: string, ctx: Ctx, db: Db, env: Env)
    ensures forall w :: w in Handle(text, ctx, db, env).writes && w.state == ServiceSelected ==>
      w.selectedService != Some("rellenos")
  {
    var t := Normalize(text);
    var r := Handle(text, ctx, db, env);
    SelectionWritesFirstMention(text, ctx, db, env);
    forall w | w in r.writes && w.state == ServiceSelected
      ensures w.selectedService != Some("rellenos")
    {
      var i :| FirstMentioned(t, i) && w.selectedService == Some(Catalog[i].slug);
      RellenosNotFirst(t, i);
    }
  }

  lemma RellenosNotFirst(t: string, i: int)
    requires FirstMentioned(t, i) && !CancelIntent(t)
    ensures Catalog[i].slug != "rellenos"
  {
    if i == 2 {
      RellenosCancels(t);
    }
  }

  lemma RellenosCancels(t: string)
    requires Mentions(t, Catalog[2])
    ensures CancelIntent(t)
  {
    var name := Lower(Catalog[2].name);
    assert At(Catalog[2].slug, "no", 5);
    assert name[5] == 'n' && name[6] == 'o';
    assert At(name, "no", 5);
    if Contains(t, Catalog[2].slug) {
      ContainsTransitive(t, Catalog[2].slug, "no");
    } else {
      ContainsTransitive(t, name, "no");
    }
    assert CancelWords[1] == "no";
  }
}

=== FILE: clock.dfy ===
/** Calendar days and instants. The source works with `datetime` values; the
    model counts whole days from a day 0 that is a Monday, and minutes from the
    midnight that starts day 0. */
module Clock {

  /** Days since day 0 (a Monday). */
  type Day = int

  /** Minutes since the midnight that starts day 0. */
  type Instant = int

  const MinutesPerDay: int := 1440

  /** Python's `date.weekday()`: Monday is 0, Sunday is 6. */
  function Weekday(d: Day): int
  {
    d % 7
  }

  /** `datetime.combine(d, time.min)`: the first minute of day `d`. */
  function Midnight(d: Day): Instant
  {
    d * MinutesPerDay
  }

  /** The `.hour` of an instant. */
  function HourOf(t: Instant): int
  {
    (t % MinutesPerDay) / 60
  }
}

=== FILE: contacts.dfy ===
/** The contact registry (`backend/services/contacts.py`): phone
    normalisation, find-or-create of a contact per (phone, clinic), the
    create-if-absent WhatsApp channel row, lookup by phone and renaming. */
module Contacts {
  import opened Wrappers
  import opened Clock
  import opened Store
  import opened Text
  import Search

  /** The characters normalisation removes once the phone is stripped. */
  predicate Dropped(c: char)
  {
    c == ' ' || c == '-' || c == '+'
  }

  /** The phone normalisation the upsert and the lookup do inline: strip
      surrounding whitespace, then remove every space, hyphen and plus sign. */
  function NormalizePhone(phone: string): (r: string)
    ensures forall c :: c in r ==> !Dropped(c)
  {
    RemoveChar(RemoveChar(RemoveChar(Strip(phone), ' '), '-'), '+')
  }

  /** Reference definition: one pass keeping, in order, every character that
      is not dropped. */
  function KeepPhoneChars(s: string): string
  {
    if s == [] then [] else (if Dropped(s[0]) then [] else [s[0]]) + KeepPhoneChars(s[1..])
  }

  lemma {:induction false} RemoveCharAppend(a: string, b: string, c: char)
    ensures RemoveChar(a + b, c) == RemoveChar(a, c) + RemoveChar(b, c)
  {
    if a != [] {
      RemoveCharAppend(a[1..], b, c);
      assert (a + b)[1..] == a[1..] + b;
    } else {
      assert a + b == b;
    }
  }

  lemma {:induction false} RemoveThreeIsKeep(s: string)
    ensures RemoveChar(RemoveChar(RemoveChar(s, ' '), '-'), '+') == KeepPhoneChars(s)
  {
    if s != [] {
      RemoveThreeIsKeep(s[1..]);
      var h := if s[0] == ' ' then [] else [s[0]];
      assert RemoveChar(s, ' ') == h + RemoveChar(s[1..], ' ');
      RemoveCharAppend(h, RemoveChar(s[1..], ' '), '-');
      var h2 := RemoveChar(h, '-');
      RemoveCharAppend(h2, RemoveChar(RemoveChar(s[1..], ' '), '-'), '+');
    }
  }

  /** Normalisation removes every space, hyphen and '+' (not only a leading
      '+') from the stripped phone and keeps all other characters in order. */
  lemma NormalizeKeepsOthers(phone: string)
    ensures NormalizePhone(phone) == KeepPhoneChars(Strip(phone))
  {
    RemoveThreeIsKeep(Strip(phone));
  }

  datatype ContactError = NoClinic

  /** A falsy `clinic_id` resolves to the first clinic; with no clinic the
      call raises before touching `contacts`. */
  function ResolveClinic(db: Db, clinic: Option<Id>): (r: Result<Id, ContactError>)
    ensures r.Failure? <==> clinic.None? && |db.clinics| == 0
    ensures clinic.Some? ==> r == Success(clinic.value)
    ensures clinic.None? && r.Success? ==> r.value < |db.clinics|
  {
    match clinic
    case Some(c) => Success(c)
    case None => if |db.clinics| > 0 then Success(0) else Failure(NoClinic)
  }

  predicate SamePhone(c: Contact, phone: string, clinic: Id)
  {
    c.phone == phone && c.clinicId == clinic
  }

  /** The first contact row with this (already normalised) phone and clinic. */
  function FindContact(contacts: seq<Contact>, phone: string, clinic: Id): (r: Option<Id>)
    ensures r.Some? ==> r.value < |contacts| && SamePhone(contacts[r.value], phone, clinic)
    ensures r.Some? ==> forall j :: 0 <= j < r.value ==> !SamePhone(contacts[j], phone, clinic)
    ensures r.None? ==> forall j :: 0 <= j < |contacts| ==> !SamePhone(contacts[j], phone, clinic)
  {
    Search.First(contacts, (c: Contact) => SamePhone(c, phone, clinic))
  }

  const WhatsApp: string := "whatsapp"
  const Active: string := "active"
  const PlaceholderPrefix: string := "Cliente WhatsApp "

  predicate IsWhatsAppChannelOf(ch: ContactChannel, contactId: Id)
  {
    ch.contactId == contactId && ch.channelType == WhatsApp
  }

  /** How many WhatsApp channel rows the contact has. */
  function WhatsAppChannels(db: Db, contactId: Id): nat
  {
    Search.Count(db.channels, (ch: ContactChannel) => IsWhatsAppChannelOf(ch, contactId))
  }

  /** `ensure_whatsapp_channel`: insert a primary, active WhatsApp channel for
      the contact only when it has none. */
  function EnsureWhatsAppChannel(db: Db, contactId: Id, phone: string, now: Instant): (r: Db)
    ensures r.clinics == db.clinics && r.contacts == db.contacts && r.conversations == db.conversations
      && r.messages == db.messages && r.services == db.services
      && r.appointments == db.appointments && r.reminders == db.reminders
    ensures WhatsAppChannels(r, contactId) == if WhatsAppChannels(db, contactId) == 0 then 1
                                              else WhatsAppChannels(db, contactId)
    ensures WhatsAppChannels(db, contactId) > 0 ==> r == db
    ensures WhatsAppChannels(db, contactId) == 0 ==>
      r.channels == db.channels + [ContactChannel(contactId, WhatsApp, phone, true, Active, now)]
  {
    var p := (ch: ContactChannel) => IsWhatsAppChannelOf(ch, contactId);
    if Search.First(db.channels, p).Some? then
      Search.CountZero(db.channels, p);
      db
    else
      var row := ContactChannel(contactId, WhatsApp, phone, true, Active, now);
      Search.CountZero(db.channels, p);
      Search.CountAppend(db.channels, row, p);
      db.(channels := db.channels + [row])
  }

  /** Calling `ensure_whatsapp_channel` twice leaves the store as the first
      call left it: a contact that had no WhatsApp channel ends with exactly one. */
  lemma EnsureChannelIdempotent(db: Db, contactId: Id, phone: string, phone': string, now: Instant, now': Instant)
    ensures var once := EnsureWhatsAppChannel(db, contactId, phone, now);
      EnsureWhatsAppChannel(once, contactId, phone', now') == once
    ensures WhatsAppChannels(db, contactId) == 0 ==>
      WhatsAppChannels(EnsureWhatsAppChannel(EnsureWhatsAppChannel(db, contactId, phone, now), contactId, phone', now'), contactId) == 1
  {
  }

  /** The row a first message from a new phone creates. */
  function NewContact(clinic: Id, phone: string, now: Instant): Contact
  {
    Contact(clinic, phone, PlaceholderPrefix + LastChars(phone, 4), WhatsApp, Active, now, now, now)
  }

  /** The store after the call, the contact's id and the row the call returns
      (for an existing contact, the row as read before its timestamps moved). */
  datatype Upserted = Upserted(db: Db, id: Id, contact: Contact)

  /** `upsert_contact_from_whatsapp`: find the clinic's contact with the
      normalised phone and refresh its activity, or create it; either way
      make sure it has a WhatsApp channel. */
  function UpsertContactFromWhatsApp(db: Db, phone: string, clinic: Option<Id>, now: Instant): (r: Result<Upserted, ContactError>)
    ensures r.Failure? <==> clinic.None? && |db.clinics| == 0
    ensures r.Success? ==>
      var u := r.value;
      var c := ResolveClinic(db, clinic).value;
      var p := NormalizePhone(phone);
      && u.id < |u.db.contacts| && SamePhone(u.db.contacts[u.id], p, c) && SamePhone(u.contact, p, c)
      && u.db.clinics == db.clinics && u.db.conversations == db.conversations && u.db.messages == db.messages
      && u.db.services == db.services && u.db.appointments == db.appointments && u.db.reminders == db.reminders
      && WhatsAppChannels(u.db, u.id) >= 1
      && u.db.channels == (if WhatsAppChannels(db, u.id) > 0 then db.channels
                           else db.channels + [ContactChannel(u.id, WhatsApp, p, true, Active, now)])
      && (FindContact(db.contacts, p, c).Some? ==>
            && u.id == FindContact(db.contacts, p, c).value
            && |u.db.contacts| == |db.contacts|
            && u.contact == db.contacts[u.id]
            && u.db.contacts[u.id] == u.contact.(lastActivityAt := now, updatedAt := now)
            && forall j :: 0 <= j < |db.contacts| && j != u.id ==> u.db.contacts[j] == db.contacts[j])
      && (FindContact(db.contacts, p, c).None? ==>
            && u.id == |db.contacts|
            && u.db.contacts == db.contacts + [u.contact]
            && u.contact.fullName == PlaceholderPrefix + LastChars(p, 4)
            && u.contact.source == WhatsApp && u.contact.status == Active
            && u.contact.lastActivityAt == now)
  {
    match ResolveClinic(db, clinic)
    case Failure(e) => Failure(e)
    case Success(c) =>
      var p := NormalizePhone(phone);
      match FindContact(db.contacts, p, c)
      case Some(i) =>
        var row := db.contacts[i];
        var db1 := db.(contacts := db.contacts[i := row.(lastActivityAt := now, updatedAt := now)]);
        Success(Upserted(EnsureWhatsAppChannel(db1, i, p, now), i, row))
      case None =>
        var row := NewContact(c, p, now);
        var id := |db.contacts|;
        var db1 := db.(contacts := db.contacts + [row]);
        Success(Upserted(EnsureWhatsAppChannel(db1, id, p, now), id, row))
  }

  /** `get_contact_by_phone(sb, phone, clinic_id)`: the first contact with the
      normalised phone in the clinic. */
  function GetContactByPhone(db: Db, phone: string, clinic: Id): (r: Option<Id>)
    ensures r.Some? ==> r.value < |db.contacts| && SamePhone(db.contacts[r.value], NormalizePhone(phone), clinic)
    ensures r.Some? ==> forall j :: 0 <= j < r.value ==> !SamePhone(db.contacts[j], NormalizePhone(phone), clinic)
    ensures r.None? ==> forall j :: 0 <= j < |db.contacts| ==> !SamePhone(db.contacts[j], NormalizePhone(phone), clinic)
  {
    FindContact(db.contacts, NormalizePhone(phone), clinic)
  }

  /** After an upsert, the contact it returned is the one its first matching
      row: upserting again finds it, so the lookup is a fixed point. */
  lemma UpsertThenFind(db: Db, phone: string, clinic: Option<Id>, now: Instant)
    requires UpsertContactFromWhatsApp(db, phone, clinic, now).Success?
    ensures var u := UpsertContactFromWhatsApp(db, phone, clinic, now).value;
      var c := ResolveClinic(db, clinic).value;
      FindContact(u.db.contacts, NormalizePhone(phone), c) == Some(u.id)
  {
    var u := UpsertContactFromWhatsApp(db, phone, clinic, now).value;
    var c := ResolveClinic(db, clinic).value;
    var p := NormalizePhone(phone);
    var pred := (x: Contact) => SamePhone(x, p, c);
    match FindContact(db.contacts, p, c)
    case Some(i) =>
      Search.FirstAgree(db.contacts, u.db.contacts, pred);
    case None =>
      Search.FirstOfAppended(db.contacts, u.contact, pred);
  }

  /** Lookup uses the same normalisation: after `upsert(p, c)`,
      `get_contact_by_phone(p, c)` finds the upserted contact. */
  lemma LookupAfterUpsert(db: Db, phone: string, clinic: Option<Id>, now: Instant)
    requires UpsertContactFromWhatsApp(db, phone, clinic, now).Success?
    ensures var u := UpsertContactFromWhatsApp(db, phone, clinic, now).value;
      GetContactByPhone(u.db, phone, ResolveClinic(db, clinic).value) == Some(u.id)
  {
    UpsertThenFind(db, phone, clinic, now);
  }

  /** Two upserts in a row with the same phone and clinic return the same
      contact id, and the second inserts no contact. */
  lemma UpsertTwiceSameContact(db: Db, phone: string, clinic: Option<Id>, now: Instant, now': Instant)
    requires UpsertContactFromWhatsApp(db, phone, clinic, now).Success?
    ensures var u := UpsertContactFromWhatsApp(db, phone, clinic, now).value;
      var v := UpsertContactFromWhatsApp(u.db, phone, clinic, now');
      v.Success? && v.value.id == u.id && |v.value.db.contacts| == |u.db.contacts|
  {
    UpsertThenFind(db, phone, clinic, now);
  }

  /** `update_contact_name`: stores the stripped name; only `full_name` and
      `updated_at` of that row change, and an unknown id changes nothing. */
  function UpdateContactName(db: Db, contactId: Id, fullName: string, now: Instant): (r: Db)
    ensures r.clinics == db.clinics && r.channels == db.channels && r.conversations == db.conversations
      && r.messages == db.messages && r.services == db.services
      && r.appointments == db.appointments && r.reminders == db.reminders
    ensures |r.contacts| == |db.contacts|
    ensures forall j :: 0 <= j < |db.contacts| && j != contactId ==> r.contacts[j] == db.contacts[j]
    ensures contactId < |db.contacts| ==>
      r.contacts[contactId] == db.contacts[contactId].(fullName := Strip(fullName), updatedAt := now)
  {
    if contactId < |db.contacts| then
      db.(contacts := db.contacts[contactId := db.contacts[contactId].(fullName := Strip(fullName), updatedAt := now)])
    else db
  }
}

=== FILE: conversations.dfy ===
/** The conversation registry (`backend/services/conversations.py`): the
    single open conversation per (clinic, contact, channel), closing, the
    message counter, the recent-messages window and the stored dialogue
    context. */
module Conversations {
  import opened Wrappers
  import opened Clock
  import opened Store
  import Search

  predicate OpenFor(c: Conversation, clinic: Id, contact: Id, channel: string)
  {
    c.clinicId == clinic && c.contactId == contact && c.channel == channel && c.status == Open
  }

  /** The first open conversation for the triple, as the `.eq(...)` query
      followed by `data[0]` finds it. */
  function FindOpen(convs: seq<Conversation>, clinic: Id, contact: Id, channel: string): (r: Option<Id>)
    ensures r.Some? ==> r.value < |convs| && OpenFor(convs[r.value], clinic, contact, channel)
    ensures r.None? ==> forall j :: 0 <= j < |convs| ==> !OpenFor(convs[j], clinic, contact, channel)
  {
    Search.First(convs, (c: Conversation) => OpenFor(c, clinic, contact, channel))
  }

  /** The store after the call, the conversation's id and the row returned
      (for an existing conversation, as read before its timestamps moved). */
  datatype Ensured = Ensured(db: Db, id: Id, conversation: Conversation)

  predicate OnlyConversationsChange(db: Db, r: Db)
  {
    r.clinics == db.clinics && r.contacts == db.contacts && r.channels == db.channels
    && r.messages == db.messages && r.services == db.services
    && r.appointments == db.appointments && r.reminders == db.reminders
  }

  /** `ensure_open_conversation`: the open conversation of the contact on the
      channel, or a fresh one when there is none. */
  function EnsureOpenConversation(db: Db, clinic: Id, contact: Id, channel: string, now: Instant): (r: Ensured)
    ensures OnlyConversationsChange(db, r.db)
    ensures r.id < |r.db.conversations| && OpenFor(r.db.conversations[r.id], clinic, contact, channel)
    ensures FindOpen(db.conversations, clinic, contact, channel).Some? ==>
      && r.id == FindOpen(db.conversations, clinic, contact, channel).value
      && |r.db.conversations| == |db.conversations|
      && r.conversation == db.conversations[r.id]
      && r.db.conversations[r.id] == r.conversation.(lastMessageAt := now, updatedAt := now)
      && forall j :: 0 <= j < |db.conversations| && j != r.id ==> r.db.conversations[j] == db.conversations[j]
    ensures FindOpen(db.conversations, clinic, contact, channel).None? ==>
      && r.id == |db.conversations|
      && r.db.conversations == db.conversations + [r.conversation]
      && r.conversation.messageCount == 0
      && r.conversation.context == InitialCtx
  {
    match FindOpen(db.conversations, clinic, contact, channel)
    case Some(i) =>
      var row := db.conversations[i];
      Ensured(db.(conversations := db.conversations[i := row.(lastMessageAt := now, updatedAt := now)]), i, row)
    case None =>
      var row := Conversation(clinic, contact, channel, Open, now, now, now, 0, None, None, InitialCtx);
      Ensured(db.(conversations := db.conversations + [row]), |db.conversations|, row)
  }

  /** `close_conversation(sb, id, reason)`; the caller's reason (the source
      defaults it to "completed") is recorded. An unknown id changes nothing. */
  function CloseConversation(db: Db, id: Id, reason: string, now: Instant): (r: Db)
    ensures OnlyConversationsChange(db, r)
    ensures |r.conversations| == |db.conversations|
    ensures forall j :: 0 <= j < |db.conversations| && j != id ==> r.conversations[j] == db.conversations[j]
    ensures id < |db.conversations| ==>
      && r.conversations[id].status == Closed
      && r.conversations[id].closeReason == Some(reason)
      && r.conversations[id].closedAt == Some(now)
      && r.conversations[id] == db.conversations[id].(status := Closed, closedAt := Some(now),
                                                      closeReason := Some(reason), updatedAt := now)
  {
    if id < |db.conversations| then
      var c := db.conversations[id];
      db.(conversations := db.conversations[id := c.(status := Closed, closedAt := Some(now),
                                                     closeReason := Some(reason), updatedAt := now)])
    else db
  }

  /** `increment_message_count`: the count goes up by exactly one. A missing
      conversation reads as count 0 and its update matches no row. */
  function IncrementMessageCount(db: Db, id: Id, now: Instant): (r: Db)
    ensures OnlyConversationsChange(db, r)
    ensures |r.conversations| == |db.conversations|
    ensures forall j :: 0 <= j < |db.conversations| && j != id ==> r.conversations[j] == db.conversations[j]
    ensures id < |db.conversations| ==>
      && r.conversations[id].messageCount == db.conversations[id].messageCount + 1
      && r.conversations[id] == db.conversations[id].(messageCount := r.conversations[id].messageCount,
                                                      lastMessageAt := now, updatedAt := now)
  {
    if id < |db.conversations| then
      var c := db.conversations[id];
      db.(conversations := db.conversations[id := c.(messageCount := c.messageCount + 1,
                                                     lastMessageAt := now, updatedAt := now)])
    else db
  }

  /** `set_conversation_context`: the stored context becomes exactly `ctx`;
      nothing of the previous context survives. */
  function SetConversationContext(db: Db, id: Id, ctx: Ctx, now: Instant): (r: Db)
    ensures OnlyConversationsChange(db, r)
    ensures |r.conversations| == |db.conversations|
    ensures forall j :: 0 <= j < |db.conversations| && j != id ==> r.conversations[j] == db.conversations[j]
    ensures id < |db.conversations| ==>
      && r.conversations[id].context == ctx
      && r.conversations[id] == db.conversations[id].(context := ctx, updatedAt := now)
  {
    if id < |db.conversations| then
      db.(conversations := db.conversations[id := db.conversations[id].(context := ctx, updatedAt := now)])
    else db
  }

  /** `get_active_conversations_by_contact`: the ids of exactly the contact's
      open conversations, in store order. */
  function GetActiveConversationsByContact(db: Db, contact: Id): (r: seq<Id>)
    ensures forall k :: 0 <= k < |r| ==> r[k] < |db.conversations|
    ensures forall j :: 0 <= j < |db.conversations| ==>
      (j in r <==> db.conversations[j].contactId == contact && db.conversations[j].status == Open)
    ensures forall k, l :: 0 <= k < l < |r| ==> r[k] < r[l]
  {
    Search.Indices(db.conversations, (c: Conversation) => c.contactId == contact && c.status == Open)
  }

  /** The invariant the find-or-create keeps: no two open conversations share
      (clinic, contact, channel). */
  predicate AtMostOneOpen(convs: seq<Conversation>)
  {
    forall i, j :: 0 <= i < j < |convs| && convs[i].status == Open && convs[j].status == Open ==>
      (convs[i].clinicId, convs[i].contactId, convs[i].channel) != (convs[j].clinicId, convs[j].contactId, convs[j].channel)
  }

  /** The registry operations that write `conversations`. */
  datatype ConversationOp =
    | EnsureOpen(clinic: Id, contact: Id, channel: string, now: Instant)
    | Close(id: Id, reason: string, now: Instant)
    | Increment(id: Id, now: Instant)
    | SetContext(id: Id, ctx: Ctx, now: Instant)

  function Apply(db: Db, op: ConversationOp): Db
  {
    match op
    case EnsureOpen(clinic, contact, channel, now) => EnsureOpenConversation(db, clinic, contact, channel, now).db
    case Close(id, reason, now) => CloseConversation(db, id, reason, now)
    case Increment(id, now) => IncrementMessageCount(db, id, now)
    case SetContext(id, ctx, now) => SetConversationContext(db, id, ctx, now)
  }

  function Run(db: Db, ops: seq<ConversationOp>): Db
    decreases |ops|
  {
    if ops == [] then db else Run(Apply(db, ops[0]), ops[1..])
  }

  lemma ApplyPreservesAtMostOneOpen(db: Db, op: ConversationOp)
    requires AtMostOneOpen(db.conversations)
    ensures AtMostOneOpen(Apply(db, op).conversations)
  {
    match op
    case EnsureOpen(clinic, contact, channel, now) =>
      var r := EnsureOpenConversation(db, clinic, contact, channel, now);
      var cs := r.db.conversations;
      if FindOpen(db.conversations, clinic, contact, channel).None? {
        forall i, j | 0 <= i < j < |cs| && cs[i].status == Open && cs[j].status == Open
          ensures (cs[i].clinicId, cs[i].contactId, cs[i].channel) != (cs[j].clinicId, cs[j].contactId, cs[j].channel)
        {
          if j == |db.conversations| {
            assert !OpenFor(db.conversations[i], clinic, contact, channel);
          } else {
            assert cs[i] == db.conversations[i] && cs[j] == db.conversations[j];
          }
        }
      } else {
        forall i, j | 0 <= i < j < |cs| && cs[i].status == Open && cs[j].status == Open
          ensures (cs[i].clinicId, cs[i].contactId, cs[i].channel) != (cs[j].clinicId, cs[j].contactId, cs[j].channel)
        {
          assert db.conversations[i].status == Open && db.conversations[j].status == Open;
        }
      }
    case Close(id, reason, now) =>
    case Increment(id, now) =>
    case SetContext(id, ctx, now) =>
  }

  /** Any sequence of registry writes keeps "at most one open conversation per
      (clinic, contact, channel)". */
  lemma {:induction false} RunPreservesAtMostOneOpen(db: Db, ops: seq<ConversationOp>)
    requires AtMostOneOpen(db.conversations)
    ensures AtMostOneOpen(Run(db, ops).conversations)
    decreases |ops|
  {
    if ops != [] {
      ApplyPreservesAtMostOneOpen(db, ops[0]);
      RunPreservesAtMostOneOpen(Apply(db, ops[0]), ops[1..]);
    }
  }

  /** Closing the open conversation makes the next find-or-create insert a
      fresh one. */
  lemma CloseThenEnsureCreatesFresh(db: Db, id: Id, reason: string, now: Instant, now': Instant)
    requires AtMostOneOpen(db.conversations)
    requires id < |db.conversations| && db.conversations[id].status == Open
    ensures var c := db.conversations[id];
      var closed := CloseConversation(db, id, reason, now);
      var r := EnsureOpenConversation(closed, c.clinicId, c.contactId, c.channel, now');
      r.id == |db.conversations| && r.id != id && r.db.conversations[r.id].status == Open
  {
    var c := db.conversations[id];
    var closed := CloseConversation(db, id, reason, now);
    forall j | 0 <= j < |closed.conversations|
      ensures !OpenFor(closed.conversations[j], c.clinicId, c.contactId, c.channel)
    {
      if j != id {
        assert closed.conversations[j] == db.conversations[j];
        if j < id {
          assert !(db.conversations[j].status == Open && db.conversations[id].status == Open
                   && (db.conversations[j].clinicId, db.conversations[j].contactId, db.conversations[j].channel)
                      == (c.clinicId, c.contactId, c.channel));
        } else {
          assert !(db.conversations[id].status == Open && db.conversations[j].status == Open
                   && (c.clinicId, c.contactId, c.channel)
                      == (db.conversations[j].clinicId, db.conversations[j].contactId, db.conversations[j].channel));
        }
      }
    }
  }

  // ---- The recent-messages window ----

  /** Nondecreasing `created_at` along the sequence. */
  predicate Chronological(ms: seq<Message>)
  {
    forall i, j :: 0 <= i < j < |ms| ==> ms[i].createdAt <= ms[j].createdAt
  }

  /** Appending a message no earlier than everything keeps a sequence
      chronological. */
  lemma AppendLatest(s: seq<Message>, last: Message)
    requires Chronological(s)
    requires forall x :: x in s ==> x.createdAt <= last.createdAt
    ensures Chronological(s + [last])
  {
    var r := s + [last];
    forall i, j | 0 <= i < j < |r|
      ensures r[i].createdAt <= r[j].createdAt
    {
      if j == |s| {
        assert r[i] == s[i] && s[i] in s;
      } else {
        assert r[i] == s[i] && r[j] == s[j];
      }
    }
  }

  /** Inserts `m` into a chronological sequence after every message not
      later than it. */
  function InsertByTime(m: Message, s: seq<Message>): (r: seq<Message>)
    requires Chronological(s)
    ensures Chronological(r)
    ensures multiset(r) == multiset(s) + multiset{m}
    ensures |r| == |s| + 1
    ensures forall x :: x in r ==> x == m || x in s
  {
    if s == [] || s[|s| - 1].createdAt <= m.createdAt then s + [m]
    else
      var last := s[|s| - 1];
      var init := s[..|s| - 1];
      assert s == init + [last];
      var r0 := InsertByTime(m, init);
      forall x | x in r0
        ensures x.createdAt <= last.createdAt
      {
        if x != m {
          var i :| 0 <= i < |init| && init[i] == x;
          assert s[i] == x;
        }
      }
      AppendLatest(r0, last);
      r0 + [last]
  }

  /** The store's `order("created_at")`: a chronological permutation. */
  function SortByTime(s: seq<Message>): (r: seq<Message>)
    ensures Chronological(r)
    ensures multiset(r) == multiset(s)
    ensures |r| == |s|
  {
    if s == [] then []
    else
      assert s == s[..|s| - 1] + [s[|s| - 1]];
      InsertByTime(s[|s| - 1], SortByTime(s[..|s| - 1]))
  }

  /** The messages of one conversation, in store order. */
  function MessagesOf(db: Db, conversationId: Id): (r: seq<Message>)
    ensures forall m :: m in r <==> m in db.messages && m.conversationId == conversationId
  {
    Search.Filter(db.messages, (m: Message) => m.conversationId == conversationId)
  }

  /** In a chronological sequence, everything before position `k` is no
      later than anything from `k` on. */
  lemma EarlierPart(s: seq<Message>, k: nat)
    requires Chronological(s) && k <= |s|
    ensures forall x, y :: x in multiset(s[..k]) && y in s[k..] ==> x.createdAt <= y.createdAt
  {
    forall x, y | x in multiset(s[..k]) && y in s[k..]
      ensures x.createdAt <= y.createdAt
    {
      assert x in s[..k];
      var i :| 0 <= i < k && s[..k][i] == x;
      var j :| 0 <= j < |s| - k && s[k..][j] == y;
      assert s[i] == x && s[k + j] == y;
    }
  }

  /** A suffix of a chronological sequence is chronological. */
  lemma SuffixChronological(s: seq<Message>, k: nat)
    requires Chronological(s) && k <= |s|
    ensures Chronological(s[k..])
  {
    forall i, j | 0 <= i < j < |s| - k
      ensures s[k..][i].createdAt <= s[k..][j].createdAt
    {
      assert s[k..][i] == s[k + i] && s[k..][j] == s[k + j];
    }
  }

  /** Removing a suffix's elements from the whole leaves the prefix's. */
  lemma SuffixComplement(all: seq<Message>, s: seq<Message>, k: nat)
    requires multiset(s) == multiset(all) && k <= |s|
    ensures multiset(all) - multiset(s[k..]) == multiset(s[..k])
    ensures multiset(s[k..]) <= multiset(all)
  {
    assert s == s[..k] + s[k..];
    assert multiset(s) == multiset(s[..k]) + multiset(s[k..]);
  }

  /** `get_conversation_context(sb, id, limit)`: newest first, at most `limit`,
      then reversed. */
  function GetConversationContext(db: Db, conversationId: Id, limit: nat): (r: seq<Message>)
    ensures |r| == if limit < |MessagesOf(db, conversationId)| then limit else |MessagesOf(db, conversationId)|
    ensures Chronological(r)
    ensures multiset(r) <= multiset(MessagesOf(db, conversationId))
    ensures forall x, y :: x in multiset(MessagesOf(db, conversationId)) - multiset(r) && y in r ==>
      x.createdAt <= y.createdAt
  {
    var all := MessagesOf(db, conversationId);
    var s := SortByTime(all);
    var k := if limit < |s| then |s| - limit else 0;
    SuffixComplement(all, s, k);
    SuffixChronological(s, k);
    EarlierPart(s, k);
    s[k..]
  }
}

=== FILE: messages.dfy ===
/** The messages router (`routers/messages.py`): the paginated history of a
    conversation, the manual send from the admin panel and the dashboard
    statistics fold. */
module Messages {
  import opened Wrappers
  import opened Clock
  import opened Store
  import opened Text
  import Search
  import Conversations

  /** Why a request fails. `InvalidQuery` is the framework's own rejection of
      a query parameter outside its declared bounds. */
  datatype Cause = InvalidQuery | MissingField(field: string) | ConversationNotFound | UpdateNotSerializable

  datatype HttpError = HttpError(status: int, cause: Cause)

  /** Every error raised inside a handler's `try` block, including the 400 and
      404 it raises itself, is caught by `except Exception` and re-raised as 500. */
  function Internal(c: Cause): HttpError
  {
    HttpError(500, c)
  }

  // ---- GET /conversations/{id}: the pagination window ----

  datatype Page = Page(conversationId: Id, messages: seq<Message>, count: nat)

  /** `.order("created_at").range(offset, offset + limit - 1)`: the rows at
      positions `offset` to `offset + limit - 1` inclusive, when present. */
  function Window(s: seq<Message>, offset: nat, limit: int): (r: seq<Message>)
    ensures |r| <= if limit < 0 then 0 else limit
    ensures |r| == if offset >= |s| || limit <= 0 then 0
                   else if limit < |s| - offset then limit else |s| - offset
    ensures forall k :: 0 <= k < |r| ==> offset + k < |s| && r[k] == s[offset + k]
    ensures offset < |s| && limit > 0 ==> r == s[offset..if offset + limit < |s| then offset + limit else |s|]
    ensures offset >= |s| || limit <= 0 ==> r == []
  {
    if offset >= |s| || limit <= 0 then []
    else s[offset..if offset + limit < |s| then offset + limit else |s|]
  }

  /** `get_conversation_messages`: a page of the conversation's messages in
      time order, after the query checks and the existence check. */
  function GetConversationMessages(db: Db, conversationId: Id, limit: int, offset: int): (r: Result<Page, HttpError>)
    ensures limit > 100 || offset < 0 ==> r == Failure(HttpError(422, InvalidQuery))
    ensures limit <= 100 && offset >= 0 && conversationId >= |db.conversations| ==>
      r == Failure(Internal(ConversationNotFound))
    ensures r.Success? ==>
      && r.value.count == |r.value.messages| <= 100
      && (limit >= 0 ==> |r.value.messages| <= limit)
      && Conversations.Chronological(r.value.messages)
      && multiset(r.value.messages) <= multiset(Conversations.MessagesOf(db, conversationId))
    ensures r.Success? ==>
      var s := Conversations.SortByTime(Conversations.MessagesOf(db, conversationId));
      && offset >= 0
      && (forall k :: 0 <= k < |r.value.messages| ==> offset + k < |s| && r.value.messages[k] == s[offset + k])
      && |r.value.messages| == if offset >= |s| || limit <= 0 then 0
                               else if limit < |s| - offset then limit else |s| - offset
  {
    if limit > 100 || offset < 0 then Failure(HttpError(422, InvalidQuery))
    else if conversationId >= |db.conversations| then Failure(Internal(ConversationNotFound))
    else
      var all := Conversations.MessagesOf(db, conversationId);
      var s := Conversations.SortByTime(all);
      var w := Window(s, offset, limit);
      WindowFacts(s, offset, limit);
      Success(Page(conversationId, w, |w|))
  }

  /** A window of a chronological sequence is chronological and draws on its
      elements. */
  lemma WindowFacts(s: seq<Message>, offset: nat, limit: int)
    requires Conversations.Chronological(s)
    ensures Conversations.Chronological(Window(s, offset, limit))
    ensures multiset(Window(s, offset, limit)) <= multiset(s)
  {
    if offset < |s| && limit > 0 {
      var e := if offset + limit < |s| then offset + limit else |s|;
      assert s == s[..offset] + s[offset..e] + s[e..];
      assert multiset(s) == multiset(s[..offset]) + multiset(s[offset..e]) + multiset(s[e..]);
    }
  }

  // ---- POST /send: manual message ----

  /** The request body; `None` is a key absent from the JSON object. */
  datatype ManualPayload = ManualPayload(
    conversationId: Option<Id>,
    content: Option<string>,
    channel: Option<string>,
    staffId: Option<Id>)

  const Outbound: string := "outbound"
  const Inbound: string := "inbound"
  const Pending: string := "pending"

  /** The first required field, in the order conversation_id, content,
      channel, that the body lacks. */
  function FirstMissing(p: ManualPayload): (r: Option<string>)
    ensures r.None? <==> p.conversationId.Some? && p.content.Some? && p.channel.Some?
    ensures r == Some("conversation_id") <==> p.conversationId.None?
    ensures r == Some("content") <==> p.conversationId.Some? && p.content.None?
    ensures r == Some("channel") <==> p.conversationId.Some? && p.content.Some? && p.channel.None?
  {
    if p.conversationId.None? then Some("conversation_id")
    else if p.content.None? then Some("content")
    else if p.channel.None? then Some("channel")
    else None
  }

  /** The store after `send_manual_message` and what it answered: the
      inserted message's id and row, or the error. */
  datatype ManualSend = ManualSend(db: Db, outcome: Result<(Id, Message), HttpError>)

  /** The outbound row `send_manual_message` inserts for an existing
      conversation. */
  function ManualMessage(db: Db, p: ManualPayload, now: Instant): (m: Message)
    requires FirstMissing(p).None? && p.conversationId.value < |db.conversations|
    ensures var conv := db.conversations[p.conversationId.value];
      && m.direction == Outbound && m.status == Pending
      && m.clinicId == conv.clinicId && m.contactId == Some(conv.contactId)
      && m.conversationId == p.conversationId.value
      && m.content == p.content.value && m.channel == p.channel.value
      && m.staffId == p.staffId && m.createdAt == now
  {
    var cid := p.conversationId.value;
    var conv := db.conversations[cid];
    Message(conv.clinicId, cid, Some(conv.contactId), p.staffId, Outbound,
            p.channel.value, p.content.value, Pending, None, now)
  }

  /** `send_manual_message(payload)` as written. A missing field fails before
      any table is read, and both its 400 and the missing conversation's 404
      surface as 500. Otherwise the message is inserted, and the conversation
      update that follows puts an unexecuted `sb.rpc(...)` builder into its
      JSON body, which cannot be serialised: that update raises, and the
      handler answers 500 with the message already stored. */
  function SendManualMessage(db: Db, p: ManualPayload, now: Instant): (r: ManualSend)
    ensures FirstMissing(p).Some? ==> r == ManualSend(db, Failure(Internal(MissingField(FirstMissing(p).value))))
    ensures FirstMissing(p).None? && p.conversationId.value >= |db.conversations| ==>
      r == ManualSend(db, Failure(Internal(ConversationNotFound)))
    ensures FirstMissing(p).None? && p.conversationId.value < |db.conversations| ==>
      && r.db == db.(messages := db.messages + [ManualMessage(db, p, now)])
      && r.outcome == Failure(Internal(UpdateNotSerializable))
    ensures r.outcome.Failure? && r.outcome.error.status == 500
  {
    match FirstMissing(p)
    case Some(field) => ManualSend(db, Failure(Internal(MissingField(field))))
    case None =>
      if p.conversationId.value >= |db.conversations| then ManualSend(db, Failure(Internal(ConversationNotFound)))
      else
        var m := ManualMessage(db, p, now);
        ManualSend(db.(messages := db.messages + [m]), Failure(Internal(UpdateNotSerializable)))
  }

  /** The manual send never answers "queued", yet a valid request leaves its
      message stored. */
  lemma ManualSendStoresButFails(db: Db, p: ManualPayload, now: Instant)
    requires FirstMissing(p).None? && p.conversationId.value < |db.conversations|
    ensures var r := SendManualMessage(db, p, now);
      && r.outcome.Failure? && r.outcome.error.status == 500
      && |r.db.messages| == |db.messages| + 1
      && r.db.messages[|db.messages|].conversationId == p.conversationId.value
  {
  }

  /** `send_manual_message` as evidently intended: after the insert, the
      conversation's `last_message_at` becomes the message's creation time and
      its `message_count` goes up by one, and the stored message is returned
      as queued. */
  function SendManualMessageIntended(db: Db, p: ManualPayload, now: Instant): (r: ManualSend)
    ensures FirstMissing(p).Some? ==> r == ManualSend(db, Failure(Internal(MissingField(FirstMissing(p).value))))
    ensures FirstMissing(p).None? && p.conversationId.value >= |db.conversations| ==>
      r == ManualSend(db, Failure(Internal(ConversationNotFound)))
    ensures r.outcome.Failure? ==> r.outcome.error.status == 500 && r.db == db
    ensures FirstMissing(p).None? && p.conversationId.value < |db.conversations| ==>
      var cid := p.conversationId.value;
      var m := ManualMessage(db, p, now);
      && r.outcome == Success((|db.messages|, m))
      && r.db.messages == db.messages + [m]
      && |r.db.conversations| == |db.conversations|
      && r.db.conversations[cid].messageCount == db.conversations[cid].messageCount + 1
      && r.db.conversations[cid] == db.conversations[cid].(lastMessageAt := m.createdAt,
                                                           messageCount := r.db.conversations[cid].messageCount)
      && (forall j :: 0 <= j < |db.conversations| && j != cid ==> r.db.conversations[j] == db.conversations[j])
      && r.db == db.(messages := r.db.messages, conversations := r.db.conversations)
  {
    match FirstMissing(p)
    case Some(field) => ManualSend(db, Failure(Internal(MissingField(field))))
    case None =>
      var cid := p.conversationId.value;
      if cid >= |db.conversations| then ManualSend(db, Failure(Internal(ConversationNotFound)))
      else
        var m := ManualMessage(db, p, now);
        var c := db.conversations[cid];
        var c' := c.(lastMessageAt := m.createdAt, messageCount := c.messageCount + 1);
        ManualSend(db.(messages := db.messages + [m], conversations := db.conversations[cid := c']),
             Success((|db.messages|, m)))
  }

  // ---- GET /stats: the statistics fold ----

  /** A counter dict: keys in first-seen order (Python dicts keep insertion
      order) with their counts. */
  type Counter = seq<(string, nat)>

  predicate UniqueKeys(c: Counter)
  {
    forall i, j :: 0 <= i < j < |c| ==> c[i].0 != c[j].0
  }

  function Sum(c: Counter): nat
  {
    if c == [] then 0 else Sum(c[..|c| - 1]) + c[|c| - 1].1
  }

  /** The count of a key, zero when the counter does not hold it. */
  function Get(c: Counter, key: string): nat
  {
    if c == [] then 0
    else if c[|c| - 1].0 == key then c[|c| - 1].1
    else Get(c[..|c| - 1], key)
  }

  lemma {:induction false} SumUpdate(c: Counter, i: nat, v: nat)
    requires i < |c|
    ensures Sum(c[i := (c[i].0, v)]) == Sum(c) - c[i].1 + v
  {
    var c' := c[i := (c[i].0, v)];
    if i < |c| - 1 {
      assert c'[..|c'| - 1] == c[..|c| - 1][i := (c[i].0, v)];
      SumUpdate(c[..|c| - 1], i, v);
    } else {
      assert c'[..|c'| - 1] == c[..|c| - 1];
    }
  }

  lemma SumAppend(c: Counter, e: (string, nat))
    ensures Sum(c + [e]) == Sum(c) + e.1
  {
    assert (c + [e])[..|c|] == c;
  }

  /** With unique keys, `get` finds the entry holding the key. */
  lemma {:induction false} GetAt(c: Counter, i: nat)
    requires UniqueKeys(c) && i < |c|
    ensures Get(c, c[i].0) == c[i].1
  {
    if i < |c| - 1 {
      GetAt(c[..|c| - 1], i);
    }
  }

  /** A key that does not occur has count 0. */
  lemma {:induction false} GetAbsent(c: Counter, key: string)
    requires forall i :: 0 <= i < |c| ==> c[i].0 != key
    ensures Get(c, key) == 0
  {
    if c != [] {
      GetAbsent(c[..|c| - 1], key);
    }
  }

  predicate HasKey(e: (string, nat), key: string)
  {
    e.0 == key
  }

  /** Updating one entry's count leaves every other key's count alone. */
  lemma {:induction false} GetUpdateOther(c: Counter, i: nat, v: nat, k: string)
    requires i < |c| && k != c[i].0
    ensures Get(c[i := (c[i].0, v)], k) == Get(c, k)
  {
    var c' := c[i := (c[i].0, v)];
    if i < |c| - 1 {
      assert c'[..|c'| - 1] == c[..|c| - 1][i := (c[i].0, v)];
      GetUpdateOther(c[..|c| - 1], i, v, k);
    } else {
      assert c'[..|c'| - 1] == c[..|c| - 1];
    }
  }

  /** Appending an entry leaves every other key's count alone. */
  lemma GetAppendOther(c: Counter, e: (string, nat), k: string)
    requires k != e.0
    ensures Get(c + [e], k) == Get(c, k)
  {
    assert (c + [e])[..|c|] == c;
  }

  /** Bumping the entry at `i` that holds `key`. */
  lemma BumpExisting(c: Counter, key: string, i: nat)
    requires UniqueKeys(c) && i < |c| && c[i].0 == key
    ensures var r := c[i := (key, c[i].1 + 1)];
      && Sum(r) == Sum(c) + 1
      && Get(r, key) == Get(c, key) + 1
      && forall k :: k != key ==> Get(r, k) == Get(c, k)
  {
    var r := c[i := (key, c[i].1 + 1)];
    SumUpdate(c, i, c[i].1 + 1);
    GetAt(c, i);
    GetAt(r, i);
    forall k | k != key
      ensures Get(r, k) == Get(c, k)
    {
      GetUpdateOther(c, i, c[i].1 + 1, k);
    }
  }

  /** Appending a fresh `key` with count 1. */
  lemma BumpFresh(c: Counter, key: string)
    requires UniqueKeys(c) && forall i :: 0 <= i < |c| ==> c[i].0 != key
    ensures var r := c + [(key, 1)];
      && UniqueKeys(r)
      && Sum(r) == Sum(c) + 1
      && Get(r, key) == Get(c, key) + 1
      && forall k :: k != key ==> Get(r, k) == Get(c, k)
  {
    var r := c + [(key, 1)];
    SumAppend(c, (key, 1));
    GetAbsent(c, key);
    GetAt(r, |c|);
    forall k | k != key
      ensures Get(r, k) == Get(c, k)
    {
      GetAppendOther(c, (key, 1), k);
    }
  }

  /** One more for the key: its count goes up by one, a missing key is added
      with count one. */
  function Bump(c: Counter, key: string): (r: Counter)
    requires UniqueKeys(c)
    ensures UniqueKeys(r)
    ensures Sum(r) == Sum(c) + 1
    ensures Get(r, key) == Get(c, key) + 1
    ensures forall k :: k != key ==> Get(r, k) == Get(c, k)
    ensures |r| >= |c|
    ensures forall i :: 0 <= i < |c| ==> r[i].0 == c[i].0 && r[i].1 >= c[i].1
    ensures forall i :: |c| <= i < |r| ==> r[i] == (key, 1)
  {
    match Search.First(c, (e: (string, nat)) => HasKey(e, key))
    case Some(i) =>
      BumpExisting(c, key, i);
      c[i := (key, c[i].1 + 1)]
    case None =>
      BumpFresh(c, key);
      c + [(key, 1)]
  }

  /** The running counts of the `for msg in messages.data` loop. */
  datatype Tally = Tally(inbound: nat, outbound: nat, byChannel: Counter, byDay: Counter)

  /** How the store renders a timestamp in JSON (ISO 8601). */
  type IsoRendering = Instant -> string

  /** The day a message falls on: the first ten characters (the date part)
      of its rendered creation time. */
  function DayKey(m: Message, iso: IsoRendering): string
  {
    FirstChars(iso(m.createdAt), 10)
  }

  /** Every key of a counter has a positive count. */
  predicate Positive(c: Counter)
  {
    forall i :: 0 <= i < |c| ==> c[i].1 > 0
  }

  /** What the loop keeps true after `n` rows. */
  predicate TallyOf(t: Tally, n: nat)
  {
    && UniqueKeys(t.byChannel) && UniqueKeys(t.byDay)
    && t.inbound + t.outbound == n
    && Sum(t.byChannel) == n && Sum(t.byDay) == n
    && Positive(t.byChannel) && Positive(t.byDay)
  }

  /** Bumping keeps every count positive. */
  lemma BumpPositive(c: Counter, key: string)
    requires UniqueKeys(c)
    ensures Positive(c) ==> Positive(Bump(c, key))
  {
    var r := Bump(c, key);
    if Positive(c) {
      forall i | 0 <= i < |r|
        ensures r[i].1 > 0
      {
        if i < |c| {
          assert r[i].1 >= c[i].1;
        }
      }
    }
  }

  function Step(t: Tally, m: Message, iso: IsoRendering): (r: Tally)
    requires UniqueKeys(t.byChannel) && UniqueKeys(t.byDay)
    ensures forall n: nat :: TallyOf(t, n) ==> TallyOf(r, n + 1)
    ensures r.inbound == t.inbound + (if m.direction == Inbound then 1 else 0)
  {
    BumpPositive(t.byChannel, m.channel);
    BumpPositive(t.byDay, DayKey(m, iso));
    Tally(if m.direction == Inbound then t.inbound + 1 else t.inbound,
          if m.direction == Inbound then t.outbound else t.outbound + 1,
          Bump(t.byChannel, m.channel),
          Bump(t.byDay, DayKey(m, iso)))
  }

  /** The loop over the fetched rows, in order. The counters always sum to the
      number of rows seen, and every key has a positive count. */
  function Fold(rows: seq<Message>, iso: IsoRendering): (t: Tally)
    ensures TallyOf(t, |rows|)
    ensures t.inbound == Search.Count(rows, (m: Message) => m.direction == Inbound)
  {
    if rows == [] then Tally(0, 0, [], [])
    else Step(Fold(rows[..|rows| - 1], iso), rows[|rows| - 1], iso)
  }

  /** Each channel's count is the number of rows on that channel, each day's
      count the number of rows whose `created_at` starts with that day. */
  lemma {:induction false} FoldCounts(rows: seq<Message>, iso: IsoRendering, channel: string, day: string)
    ensures Get(Fold(rows, iso).byChannel, channel) == Search.Count(rows, (m: Message) => m.channel == channel)
    ensures Get(Fold(rows, iso).byDay, day) == Search.Count(rows, (m: Message) => DayKey(m, iso) == day)
  {
    FoldChannelCount(rows, iso, channel);
    FoldDayCount(rows, iso, day);
  }

  lemma {:induction false} FoldChannelCount(rows: seq<Message>, iso: IsoRendering, channel: string)
    ensures Get(Fold(rows, iso).byChannel, channel) == Search.Count(rows, (m: Message) => m.channel == channel)
  {
    if rows != [] {
      var init := rows[..|rows| - 1];
      var t := Fold(init, iso);
      FoldChannelCount(init, iso, channel);
      assert Fold(rows, iso).byChannel == Bump(t.byChannel, rows[|rows| - 1].channel);
    }
  }

  lemma {:induction false} FoldDayCount(rows: seq<Message>, iso: IsoRendering, day: string)
    ensures Get(Fold(rows, iso).byDay, day) == Search.Count(rows, (m: Message) => DayKey(m, iso) == day)
  {
    if rows != [] {
      var init := rows[..|rows| - 1];
      var t := Fold(init, iso);
      FoldDayCount(init, iso, day);
      assert Fold(rows, iso).byDay == Bump(t.byDay, DayKey(rows[|rows| - 1], iso));
    }
  }

  /** Every channel's and every day's count is its number of rows. */
  lemma FoldCountsAll(rows: seq<Message>, iso: IsoRendering)
    ensures forall channel :: Get(Fold(rows, iso).byChannel, channel) == Search.Count(rows, (m: Message) => m.channel == channel)
    ensures forall day :: Get(Fold(rows, iso).byDay, day) == Search.Count(rows, (m: Message) => DayKey(m, iso) == day)
  {
    forall channel: string {
      FoldChannelCount(rows, iso, channel);
    }
    forall day: string {
      FoldDayCount(rows, iso, day);
    }
  }

  /** The statistics object. */
  datatype Stats = Stats(totalMessages: nat, inboundCount: nat, outboundCount: nat,
                         byChannel: Counter, byDay: Counter)

  /** The rows the stats query fetches: the clinic's (or every clinic's)
      messages created at or after `now` minus `days` days. */
  function StatsRows(db: Db, clinic: Option<Id>, days: int, now: Instant): (r: seq<Message>)
    ensures forall k :: 0 <= k < |r| ==> r[k] in db.messages && r[k].createdAt >= now - days * MinutesPerDay
    ensures forall k :: 0 <= k < |r| ==> clinic.Some? ==> r[k].clinicId == clinic.value
  {
    Search.Filter(db.messages, (m: Message) => (clinic.None? || m.clinicId == clinic.value)
                                              && m.createdAt >= now - days * MinutesPerDay)
  }

  /** `get_message_stats(clinic_id, days)`: `days` must lie in 1..90; the
      total is the number of fetched rows, inbound and outbound split it
      (any direction other than "inbound" counts as outbound), and the
      per-channel and per-day counters each sum to it. */
  function GetMessageStats(db: Db, clinic: Option<Id>, days: int, now: Instant, iso: IsoRendering): (r: Result<Stats, HttpError>)
    ensures !(1 <= days <= 90) ==> r == Failure(HttpError(422, InvalidQuery))
    ensures r.Success? ==>
      var s := r.value;
      && s.totalMessages == |StatsRows(db, clinic, days, now)|
      && s.inboundCount + s.outboundCount == s.totalMessages
      && Sum(s.byChannel) == s.totalMessages
      && Sum(s.byDay) == s.totalMessages
      && UniqueKeys(s.byChannel) && UniqueKeys(s.byDay)
    ensures r.Success? ==>
      var rows := StatsRows(db, clinic, days, now);
      && r.value.inboundCount == Search.Count(rows, (m: Message) => m.direction == Inbound)
      && (forall channel :: Get(r.value.byChannel, channel) == Search.Count(rows, (m: Message) => m.channel == channel))
      && (forall day :: Get(r.value.byDay, day) == Search.Count(rows, (m: Message) => DayKey(m, iso) == day))
  {
    if !(1 <= days <= 90) then Failure(HttpError(422, InvalidQuery))
    else
      var rows := StatsRows(db, clinic, days, now);
      var t := Fold(rows, iso);
      FoldCountsAll(rows, iso);
      Success(Stats(|rows|, t.inbound, t.outbound, t.byChannel, t.byDay))
  }
}

=== FILE: reminders.dfy ===
/** The reminder sweep (`backend/services/reminders.py`,
    `run_scheduled_reminders`): select the due, unsent reminders, skip those
    whose contact has no phone, send, mark sent with the sweep's start time
    and count. The WhatsApp send is an oracle that returns or raises. */
module Reminders {
  import opened Wrappers
  import opened Clock
  import opened Store
  import Search

  /** What one send did. The HTTP status is never inspected, so any response
      counts as `Returned`; only an exception is `Raised`. */
  datatype SendOutcome = Returned | Raised

  /** The outbound send: the `n`-th send of the sweep (counted from 0), to the
      given phone, for an appointment starting at the given instant. The call
      index lets each call of one sweep return or raise independently. */
  type Sender = (nat, string, Instant) -> SendOutcome

  /** One attempted send. */
  datatype Send = Send(phone: string, startAt: Instant)

  /** Why a sweep stops early: the reminder's appointment row is missing (the
      source then indexes `None` and raises), or the send raised. */
  datatype Abort = AppointmentMissing | SendRaised

  /** The sweep's return value, or the exception that escaped it. */
  datatype Outcome = Completed(count: nat) | Aborted(reason: Abort)

  /** The store after the sweep (its writes persist even when it aborts), the
      sends attempted, the reminders marked sent (in order) and the outcome. */
  datatype Sweep = Sweep(db: Db, sends: seq<Send>, marked: seq<Id>, outcome: Outcome)

  /** `sent_at is null`, `status = scheduled`, `scheduled_at <= now`. */
  predicate IsDue(r: Reminder, now: Instant)
  {
    r.sentAt.None? && r.status == Scheduled && r.scheduledAt <= now
  }

  function DueReminders(db: Db, now: Instant): (r: seq<Id>)
    ensures forall k :: 0 <= k < |r| ==> r[k] < |db.reminders| && IsDue(db.reminders[r[k]], now)
    ensures forall j :: 0 <= j < |db.reminders| && IsDue(db.reminders[j], now) ==> j in r
    ensures forall k, l :: 0 <= k < l < |r| ==> r[k] < r[l]
  {
    Search.Indices(db.reminders, (r: Reminder) => IsDue(r, now))
  }

  /** Whom a reminder goes to: its appointment may be missing, its contact
      missing or without a phone. */
  datatype Recipient = NoAppointment | NoPhone | Phone(phone: string, startAt: Instant)

  function RecipientOf(db: Db, r: Reminder): Recipient
  {
    if r.appointmentId >= |db.appointments| then NoAppointment
    else
      var appt := db.appointments[r.appointmentId];
      if appt.contactId >= |db.contacts| || db.contacts[appt.contactId].phone == "" then NoPhone
      else Phone(db.contacts[appt.contactId].phone, appt.startAt)
  }

  function Marked(r: Reminder, now: Instant): Reminder
  {
    r.(sentAt := Some(now), status := Sent)
  }

  predicate Ids(due: seq<Id>, db: Db)
  {
    forall k :: 0 <= k < |due| ==> due[k] < |db.reminders|
  }

  /** The loop of the sweep from position `i` of the due list. */
  function SweepFrom(db: Db, due: seq<Id>, i: nat, now: Instant, send: Sender,
                     sends: seq<Send>, marked: seq<Id>): Sweep
    requires i <= |due| && Ids(due, db)
    decreases |due| - i
  {
    if i == |due| then Sweep(db, sends, marked, Completed(|marked|))
    else
      var id := due[i];
      match RecipientOf(db, db.reminders[id])
      case NoAppointment => Sweep(db, sends, marked, Aborted(AppointmentMissing))
      case NoPhone => SweepFrom(db, due, i + 1, now, send, sends, marked)
      case Phone(phone, start) =>
        if send(|sends|, phone, start) == Raised then
          Sweep(db, sends + [Send(phone, start)], marked, Aborted(SendRaised))
        else
          var db' := db.(reminders := db.reminders[id := Marked(db.reminders[id], now)]);
          SweepFrom(db', due, i + 1, now, send, sends + [Send(phone, start)], marked + [id])
  }

  /** `run_scheduled_reminders(sb)` with the sweep start `now`: the sweep
      facts below hold of its result. */
  function RunScheduledReminders(db: Db, now: Instant, send: Sender): (s: Sweep)
    ensures SweepFacts(db, DueReminders(db, now), now, send, s)
  {
    SweepFromFacts(db, db, DueReminders(db, now), 0, now, send, [], []);
    SweepFrom(db, DueReminders(db, now), 0, now, send, [], [])
  }

  /** Only `appointment_reminders` is written; it keeps its rows. */
  predicate OnlyRemindersChange(db: Db, r: Db)
  {
    r.clinics == db.clinics && r.contacts == db.contacts && r.channels == db.channels
    && r.conversations == db.conversations && r.messages == db.messages
    && r.services == db.services && r.appointments == db.appointments
    && |r.reminders| == |db.reminders|
  }

  /** Exactly the listed reminders are marked sent at `now`; the rest keep
      their row. */
  predicate MarkedExactly(db: Db, r: Db, marked: seq<Id>, now: Instant)
    requires OnlyRemindersChange(db, r)
  {
    forall j :: 0 <= j < |db.reminders| ==>
      r.reminders[j] == if j in marked then Marked(db.reminders[j], now) else db.reminders[j]
  }

  /** The `k`-th send went to the phone and start of the `k`-th marked
      reminder. */
  predicate SentTo(db0: Db, sends: seq<Send>, marked: seq<Id>)
  {
    |sends| >= |marked|
    && forall k :: 0 <= k < |marked| ==>
         marked[k] < |db0.reminders|
         && RecipientOf(db0, db0.reminders[marked[k]]) == Phone(sends[k].phone, sends[k].startAt)
  }

  /** Every send that led to a mark returned: the `k`-th call of the sweep,
      made for the `k`-th marked reminder, did not raise. */
  predicate Answered(send: Sender, sends: seq<Send>, marked: seq<Id>)
  {
    |sends| >= |marked|
    && forall k :: 0 <= k < |marked| ==> send(k, sends[k].phone, sends[k].startAt) == Returned
  }

  /** What holds of the sweep's state after the first `i` due reminders. */
  predicate Progress(db0: Db, db: Db, due: seq<Id>, i: nat, now: Instant, sends: seq<Send>, marked: seq<Id>)
  {
    && i <= |due| && Ids(due, db0)
    && OnlyRemindersChange(db0, db)
    && MarkedExactly(db0, db, marked, now)
    && (forall x :: x in marked ==> x in due[..i])
    && (forall k, l :: 0 <= k < l < |marked| ==> marked[k] < marked[l])
    && |marked| <= i
    && (forall x :: x in marked ==> RecipientOf(db0, db0.reminders[x]).Phone?)
    && (forall k :: 0 <= k < i ==> RecipientOf(db0, db0.reminders[due[k]]).Phone? ==> due[k] in marked)
    && |sends| == |marked|
    && SentTo(db0, sends, marked)
  }

  /** The facts the sweep establishes, given where it started. */
  predicate SweepFacts(db0: Db, due: seq<Id>, now: Instant, send: Sender, s: Sweep)
    requires Ids(due, db0)
  {
    && OnlyRemindersChange(db0, s.db)
    && MarkedExactly(db0, s.db, s.marked, now)
    && (forall x :: x in s.marked ==> x in due)
    && (forall k, l :: 0 <= k < l < |s.marked| ==> s.marked[k] < s.marked[l])
    && |s.marked| <= |due|
    && (forall x :: x in s.marked ==> RecipientOf(db0, db0.reminders[x]).Phone?)
    && (s.outcome.Completed? ==> s.outcome.count == |s.marked|)
    && (s.outcome.Completed? ==>
          forall k :: 0 <= k < |due| ==> (due[k] in s.marked <==> RecipientOf(db0, db0.reminders[due[k]]).Phone?))
    && (s.outcome.Completed? ==> |s.sends| == |s.marked|)
    && SentTo(db0, s.sends, s.marked)
    && Answered(send, s.sends, s.marked)
    && (s.outcome.Aborted? ==> exists k | 0 <= k < |due| :: AbortedAt(db0, due, send, s, k))
  }

  /** The sweep stopped at the `k`-th due reminder: every earlier due reminder
      with a phone was marked, everything marked comes earlier in the due
      list, so that reminder and every later one stay unmarked; the stop is a
      missing appointment or a send to a reminder with a phone that raised. */
  predicate AbortedAt(db0: Db, due: seq<Id>, send: Sender, s: Sweep, k: int)
    requires Ids(due, db0)
  {
    && 0 <= k < |due|
    && (forall j :: 0 <= j < k && RecipientOf(db0, db0.reminders[due[j]]).Phone? ==> due[j] in s.marked)
    && (forall x :: x in s.marked ==> x < due[k])
    && s.outcome.Aborted?
    && (s.outcome.reason == AppointmentMissing <==> RecipientOf(db0, db0.reminders[due[k]]).NoAppointment?)
    && (s.outcome.reason == SendRaised ==> RecipientOf(db0, db0.reminders[due[k]]).Phone?)
    && (s.outcome.reason == AppointmentMissing ==> |s.sends| == |s.marked|)
    && (s.outcome.reason == SendRaised ==>
          |s.sends| == |s.marked| + 1
          && RecipientOf(db0, db0.reminders[due[k]]) == Phone(s.sends[|s.marked|].phone, s.sends[|s.marked|].startAt)
          && send(|s.marked|, s.sends[|s.marked|].phone, s.sends[|s.marked|].startAt) == Raised)
  }

  /** Everything marked so far precedes the `i`-th due reminder, which
      therefore still holds its original row. */
  lemma NextUntouched(db0: Db, db: Db, due: seq<Id>, i: nat, now: Instant, sends: seq<Send>, marked: seq<Id>)
    requires Progress(db0, db, due, i, now, sends, marked) && i < |due|
    requires forall k, l :: 0 <= k < l < |due| ==> due[k] < due[l]
    ensures forall x :: x in marked ==> x < due[i] && x in due
    ensures due[i] < |db.reminders| && db.reminders[due[i]] == db0.reminders[due[i]]
  {
    forall x | x in marked
      ensures x < due[i] && x in due
    {
      var k :| 0 <= k < i && due[..i][k] == x;
      assert due[k] == x;
    }
  }

  /** Skipping a reminder without a phone keeps the progress facts. */
  lemma ProgressSkip(db0: Db, db: Db, due: seq<Id>, i: nat, now: Instant, sends: seq<Send>, marked: seq<Id>)
    requires Progress(db0, db, due, i, now, sends, marked) && i < |due|
    requires forall k, l :: 0 <= k < l < |due| ==> due[k] < due[l]
    requires !RecipientOf(db0, db0.reminders[due[i]]).Phone?
    ensures Progress(db0, db, due, i + 1, now, sends, marked)
  {
    assert due[..i + 1] == due[..i] + [due[i]];
  }

  /** Recording one more send and its marked reminder keeps the pairing. */
  lemma SentToAppend(db0: Db, sends: seq<Send>, marked: seq<Id>, id: Id, phone: string, start: Instant)
    requires SentTo(db0, sends, marked) && |sends| == |marked|
    requires id < |db0.reminders| && RecipientOf(db0, db0.reminders[id]) == Phone(phone, start)
    ensures SentTo(db0, sends + [Send(phone, start)], marked + [id])
  {
    var sends' := sends + [Send(phone, start)];
    var marked' := marked + [id];
    forall k | 0 <= k < |marked'|
      ensures marked'[k] < |db0.reminders|
      ensures RecipientOf(db0, db0.reminders[marked'[k]]) == Phone(sends'[k].phone, sends'[k].startAt)
    {
      if k < |marked| {
        assert marked'[k] == marked[k] && sends'[k] == sends[k];
      }
    }
  }

  /** A send that returned, with its marked reminder, keeps every mark
      answered. */
  lemma AnsweredAppend(send: Sender, sends: seq<Send>, marked: seq<Id>, id: Id, phone: string, start: Instant)
    requires Answered(send, sends, marked) && |sends| == |marked|
    requires send(|sends|, phone, start) == Returned
    ensures Answered(send, sends + [Send(phone, start)], marked + [id])
  {
    var sends' := sends + [Send(phone, start)];
    forall k | 0 <= k < |marked| + 1
      ensures send(k, sends'[k].phone, sends'[k].startAt) == Returned
    {
      if k < |marked| {
        assert sends'[k] == sends[k];
      }
    }
  }

  /** Marking the `i`-th due reminder after a returning send keeps the
      progress facts one step further. */
  lemma ProgressMark(db0: Db, db: Db, due: seq<Id>, i: nat, now: Instant, sends: seq<Send>, marked: seq<Id>,
                     phone: string, start: Instant)
    requires Progress(db0, db, due, i, now, sends, marked) && i < |due|
    requires forall k, l :: 0 <= k < l < |due| ==> due[k] < due[l]
    requires RecipientOf(db0, db0.reminders[due[i]]) == Phone(phone, start)
    ensures due[i] < |db.reminders|
    ensures Progress(db0, db.(reminders := db.reminders[due[i] := Marked(db.reminders[due[i]], now)]),
                     due, i + 1, now, sends + [Send(phone, start)], marked + [due[i]])
  {
    var id := due[i];
    NextUntouched(db0, db, due, i, now, sends, marked);
    assert due[..i + 1] == due[..i] + [id];
    var marked' := marked + [id];
    SentToAppend(db0, sends, marked, id, phone, start);
    forall k, l | 0 <= k < l < |marked'|
      ensures marked'[k] < marked'[l]
    {
      if l == |marked| {
        assert marked'[k] == marked[k] && marked[k] in marked;
      } else {
        assert marked'[k] == marked[k] && marked'[l] == marked[l];
      }
    }
  }

  /** A sweep that stops at the `i`-th due reminder meets the sweep facts. */
  lemma AbortFacts(db0: Db, db: Db, due: seq<Id>, i: nat, now: Instant, send: Sender, sends: seq<Send>, marked: seq<Id>,
                   extra: seq<Send>, s: Sweep)
    requires Progress(db0, db, due, i, now, sends, marked) && i < |due|
    requires Answered(send, sends, marked)
    requires forall k, l :: 0 <= k < l < |due| ==> due[k] < due[l]
    requires s.db == db && s.marked == marked && s.sends == sends + extra && s.outcome.Aborted?
    requires s.outcome.reason == AppointmentMissing <==> RecipientOf(db0, db0.reminders[due[i]]).NoAppointment?
    requires s.outcome.reason == AppointmentMissing ==> extra == []
    requires s.outcome.reason == SendRaised ==>
      |extra| == 1 && RecipientOf(db0, db0.reminders[due[i]]) == Phone(extra[0].phone, extra[0].startAt)
      && send(|sends|, extra[0].phone, extra[0].startAt) == Raised
    ensures SweepFacts(db0, due, now, send, s)
  {
    NextUntouched(db0, db, due, i, now, sends, marked);
    assert forall k :: 0 <= k < |marked| ==> s.sends[k] == sends[k];
    assert AbortedAt(db0, due, send, s, i);
  }

  /** A sweep that reaches the end of the due list meets the sweep facts. */
  lemma CompletedFacts(db0: Db, db: Db, due: seq<Id>, now: Instant, send: Sender, sends: seq<Send>, marked: seq<Id>)
    requires Progress(db0, db, due, |due|, now, sends, marked) && Answered(send, sends, marked)
    ensures SweepFacts(db0, due, now, send, Sweep(db, sends, marked, Completed(|marked|)))
  {
    assert due[..|due|] == due;
  }

  lemma {:induction false} SweepFromFacts(db0: Db, db: Db, due: seq<Id>, i: nat, now: Instant,
                                          send: Sender, sends: seq<Send>, marked: seq<Id>)
    requires Progress(db0, db, due, i, now, sends, marked) && Answered(send, sends, marked)
    requires forall k, l :: 0 <= k < l < |due| ==> due[k] < due[l]
    ensures Ids(due, db)
    ensures SweepFacts(db0, due, now, send, SweepFrom(db, due, i, now, send, sends, marked))
    decreases |due| - i, 2
  {
    if i == |due| {
      CompletedFacts(db0, db, due, now, send, sends, marked);
    } else {
      var id := due[i];
      NextUntouched(db0, db, due, i, now, sends, marked);
      var who := RecipientOf(db0, db0.reminders[id]);
      assert RecipientOf(db, db.reminders[id]) == who;
      var s := SweepFrom(db, due, i, now, send, sends, marked);
      match who
      case NoAppointment =>
        assert s == Sweep(db, sends, marked, Aborted(AppointmentMissing));
        AbortFacts(db0, db, due, i, now, send, sends, marked, [], s);
      case NoPhone =>
        assert s == SweepFrom(db, due, i + 1, now, send, sends, marked);
        ProgressSkip(db0, db, due, i, now, sends, marked);
        SweepFromFacts(db0, db, due, i + 1, now, send, sends, marked);
      case Phone(phone, start) =>
        SendStepFacts(db0, db, due, i, now, send, sends, marked, phone, start);
    }
  }

  /** The step of the sweep that sends to the `i`-th due reminder. */
  lemma {:induction false} SendStepFacts(db0: Db, db: Db, due: seq<Id>, i: nat, now: Instant,
                                         send: Sender, sends: seq<Send>, marked: seq<Id>,
                                         phone: string, start: Instant)
    requires Progress(db0, db, due, i, now, sends, marked) && Answered(send, sends, marked) && i < |due|
    requires forall k, l :: 0 <= k < l < |due| ==> due[k] < due[l]
    requires RecipientOf(db0, db0.reminders[due[i]]) == Phone(phone, start)
    ensures Ids(due, db)
    ensures SweepFacts(db0, due, now, send, SweepFrom(db, due, i, now, send, sends, marked))
    decreases |due| - i, 1
  {
    NextUntouched(db0, db, due, i, now, sends, marked);
    SendStep(db, due, i, now, send, sends, marked, phone, start);
    if send(|sends|, phone, start) == Raised {
      AbortFacts(db0, db, due, i, now, send, sends, marked, [Send(phone, start)],
                 Sweep(db, sends + [Send(phone, start)], marked, Aborted(SendRaised)));
    } else {
      MarkStepFacts(db0, db, due, i, now, send, sends, marked, phone, start);
    }
  }

  /** The step of the sweep that marks the `i`-th due reminder. */
  lemma {:induction false} MarkStepFacts(db0: Db, db: Db, due: seq<Id>, i: nat, now: Instant,
                                         send: Sender, sends: seq<Send>, marked: seq<Id>,
                                         phone: string, start: Instant)
    requires Progress(db0, db, due, i, now, sends, marked) && Answered(send, sends, marked) && i < |due|
    requires forall k, l :: 0 <= k < l < |due| ==> due[k] < due[l]
    requires RecipientOf(db0, db0.reminders[due[i]]) == Phone(phone, start)
    requires send(|sends|, phone, start) == Returned
    ensures due[i] < |db.reminders|
    ensures SweepFacts(db0, due, now, send,
                       SweepFrom(db.(reminders := db.reminders[due[i] := Marked(db.reminders[due[i]], now)]),
                                 due, i + 1, now, send, sends + [Send(phone, start)], marked + [due[i]]))
    decreases |due| - i, 0
  {
    var id := due[i];
    var db' := db.(reminders := db.reminders[id := Marked(db.reminders[id], now)]);
    var sends', marked' := sends + [Send(phone, start)], marked + [id];
    ProgressMark(db0, db, due, i, now, sends, marked, phone, start);
    AnsweredAppend(send, sends, marked, id, phone, start);
    SweepFromFacts(db0, db', due, i + 1, now, send, sends', marked');
  }

  /** The sweep's step at a reminder with a phone: stop if the send raises,
      otherwise mark it and go on. */
  lemma SendStep(db: Db, due: seq<Id>, i: nat, now: Instant, send: Sender, sends: seq<Send>, marked: seq<Id>,
                 phone: string, start: Instant)
    requires i < |due| && Ids(due, db)
    requires RecipientOf(db, db.reminders[due[i]]) == Phone(phone, start)
    ensures send(|sends|, phone, start) == Raised ==>
      SweepFrom(db, due, i, now, send, sends, marked)
        == Sweep(db, sends + [Send(phone, start)], marked, Aborted(SendRaised))
    ensures send(|sends|, phone, start) != Raised ==>
      SweepFrom(db, due, i, now, send, sends, marked)
        == SweepFrom(db.(reminders := db.reminders[due[i] := Marked(db.reminders[due[i]], now)]),
                     due, i + 1, now, send, sends + [Send(phone, start)], marked + [due[i]])
  {
  }

  /** With a sender that never raises and every due reminder's appointment
      present, the sweep completes and marks exactly the due reminders whose
      contact has a phone. */
  lemma ReturningSenderCompletes(db: Db, now: Instant, send: Sender)
    requires forall n, phone, start :: send(n, phone, start) == Returned
    requires forall x :: x in DueReminders(db, now) ==> !RecipientOf(db, db.reminders[x]).NoAppointment?
    ensures var s := RunScheduledReminders(db, now, send);
      && s.outcome == Completed(|s.marked|)
      && forall x :: x in DueReminders(db, now) ==> (x in s.marked <==> RecipientOf(db, db.reminders[x]).Phone?)
  {
  }

  /** A second sweep at the same `now` resends nothing the first one marked. */
  lemma SecondSweepSkipsMarked(db: Db, now: Instant, send: Sender, send': Sender)
    ensures var first := RunScheduledReminders(db, now, send);
      var second := RunScheduledReminders(first.db, now, send');
      forall x :: x in first.marked ==> x !in second.marked
  {
    var first := RunScheduledReminders(db, now, send);
    var second := RunScheduledReminders(first.db, now, send');
    forall x | x in first.marked
      ensures x !in second.marked
    {
      assert first.db.reminders[x].sentAt.Some?;
      assert x !in DueReminders(first.db, now);
    }
  }

  /** The sweep as the source writes it: a `for` loop with early exit when an
      exception escapes. */
  method Sweeper(db: Db, now: Instant, send: Sender) returns (s: Sweep)
    ensures s == RunScheduledReminders(db, now, send)
  {
    var due := DueReminders(db, now);
    var cur := db;
    var sends: seq<Send> := [];
    var marked: seq<Id> := [];
    var i := 0;
    while i < |due|
      invariant i <= |due|
      invariant Ids(due, cur)
      invariant SweepFrom(cur, due, i, now, send, sends, marked) == RunScheduledReminders(db, now, send)
    {
      var id := due[i];
      var recipient := RecipientOf(cur, cur.reminders[id]);
      if recipient.NoAppointment? {
        return Sweep(cur, sends, marked, Aborted(AppointmentMissing));
      }
      if recipient.Phone? {
        var sent := Send(recipient.phone, recipient.startAt);
        if send(|sends|, recipient.phone, recipient.startAt) == Raised {
          return Sweep(cur, sends + [sent], marked, Aborted(SendRaised));
        }
        cur := cur.(reminders := cur.reminders[id := Marked(cur.reminders[id], now)]);
        sends := sends + [sent];
        marked := marked + [id];
      }
      i := i + 1;
    }
    return Sweep(cur, sends, marked, Completed(|marked|));
  }
}

=== FILE: search.dfy ===
/** First-match and filter searches over a sequence: the shape of every
    "`.eq(...)` then take `data[0]`" or "keep the rows that satisfy ..." query
    of the source, with rows in insertion (index) order. */
module Search {
  import opened Wrappers

  /** Index of the first element at or after `i` satisfying `p`. */
  function FirstFrom<T>(s: seq<T>, p: T -> bool, i: nat): (r: Option<nat>)
    requires i <= |s|
    decreases |s| - i
    ensures r.Some? ==> i <= r.value < |s| && p(s[r.value])
    ensures r.Some? ==> forall j :: i <= j < r.value ==> !p(s[j])
    ensures r.None? ==> forall j :: i <= j < |s| ==> !p(s[j])
  {
    if i == |s| then None
    else if p(s[i]) then Some(i)
    else FirstFrom(s, p, i + 1)
  }

  /** Index of the first element satisfying `p`, if any. */
  function First<T>(s: seq<T>, p: T -> bool): (r: Option<nat>)
    ensures r.Some? ==> r.value < |s| && p(s[r.value])
    ensures r.Some? ==> forall j :: 0 <= j < r.value ==> !p(s[j])
    ensures r.None? ==> forall j :: 0 <= j < |s| ==> !p(s[j])
  {
    FirstFrom(s, p, 0)
  }

  /** The indices at or after `i` of the elements satisfying `p`, ascending. */
  function IndicesFrom<T>(s: seq<T>, p: T -> bool, i: nat): (r: seq<nat>)
    requires i <= |s|
    decreases |s| - i
    ensures forall k :: 0 <= k < |r| ==> i <= r[k] < |s| && p(s[r[k]])
    ensures forall j :: i <= j < |s| && p(s[j]) ==> j in r
    ensures forall k, l :: 0 <= k < l < |r| ==> r[k] < r[l]
    ensures |r| <= |s| - i
  {
    if i == |s| then []
    else if p(s[i]) then [i] + IndicesFrom(s, p, i + 1)
    else IndicesFrom(s, p, i + 1)
  }

  /** The indices of the elements satisfying `p`, ascending. */
  function Indices<T>(s: seq<T>, p: T -> bool): (r: seq<nat>)
    ensures forall k :: 0 <= k < |r| ==> r[k] < |s| && p(s[r[k]])
    ensures forall j :: 0 <= j < |s| && p(s[j]) ==> j in r
    ensures forall k, l :: 0 <= k < l < |r| ==> r[k] < r[l]
  {
    IndicesFrom(s, p, 0)
  }

  /** Number of elements satisfying `p`. */
  function Count<T>(s: seq<T>, p: T -> bool): nat
  {
    if s == [] then 0 else (if p(s[|s| - 1]) then 1 else 0) + Count(s[..|s| - 1], p)
  }

  /** Two sequences on which `p` agrees position by position have the same
      first match. */
  lemma {:induction false} FirstFromAgree<T>(s: seq<T>, s': seq<T>, p: T -> bool, i: nat)
    requires i <= |s| == |s'|
    requires forall j :: i <= j < |s| ==> p(s[j]) == p(s'[j])
    ensures FirstFrom(s, p, i) == FirstFrom(s', p, i)
    decreases |s| - i
  {
    if i < |s| {
      FirstFromAgree(s, s', p, i + 1);
    }
  }

  lemma FirstAgree<T>(s: seq<T>, s': seq<T>, p: T -> bool)
    requires |s| == |s'|
    requires forall j :: 0 <= j < |s| ==> p(s[j]) == p(s'[j])
    ensures First(s, p) == First(s', p)
  {
    FirstFromAgree(s, s', p, 0);
  }

  /** Appending a matching element to a sequence without a match makes the
      new element the first match. */
  lemma FirstOfAppended<T>(s: seq<T>, x: T, p: T -> bool)
    requires First(s, p).None? && p(x)
    ensures First(s + [x], p) == Some(|s|)
  {
    assert (s + [x])[|s|] == x;
    assert forall j :: 0 <= j < |s| ==> (s + [x])[j] == s[j];
  }

  /** `Count` of an appended element. */
  lemma CountAppend<T>(s: seq<T>, x: T, p: T -> bool)
    ensures Count(s + [x], p) == Count(s, p) + (if p(x) then 1 else 0)
  {
    assert (s + [x])[..|s|] == s;
  }

  /** No element matches exactly when the count is zero. */
  lemma {:induction false} CountZero<T>(s: seq<T>, p: T -> bool)
    ensures Count(s, p) == 0 <==> forall j :: 0 <= j < |s| ==> !p(s[j])
  {
    if s != [] {
      CountZero(s[..|s| - 1], p);
      assert forall j :: 0 <= j < |s| - 1 ==> s[..|s| - 1][j] == s[j];
    }
  }

  /** The elements satisfying `p`, in their original order. */
  function Filter<T>(s: seq<T>, p: T -> bool): (r: seq<T>)
    ensures forall k :: 0 <= k < |r| ==> r[k] in s && p(r[k])
    ensures forall j :: 0 <= j < |s| && p(s[j]) ==> s[j] in r
    ensures multiset(r) <= multiset(s)
  {
    if s == [] then []
    else
      assert s == s[..|s| - 1] + [s[|s| - 1]];
      Filter(s[..|s| - 1], p) + (if p(s[|s| - 1]) then [s[|s| - 1]] else [])
  }

  /** The first position `k` with `i <= k < n` satisfying `p`. */
  function FirstPosition(n: nat, p: nat -> bool, i: nat): (r: Option<nat>)
    requires i <= n
    decreases n - i
    ensures r.Some? ==> i <= r.value < n && p(r.value)
    ensures r.Some? ==> forall k :: i <= k < r.value ==> !p(k)
    ensures r.None? ==> forall k :: i <= k < n ==> !p(k)
  {
    if i == n then None
    else if p(i) then Some(i)
    else FirstPosition(n, p, i + 1)
  }
}

=== FILE: slots.dfy ===
/** The slot engine (`services/availability.py`): candidate start times every
    60 minutes inside the 09:00-19:00 business window, filtered by the store's
    overlap check, and the two-row booking insert. */
module Slots {
  import opened Wrappers
  import opened Clock
  import opened Store

  /** 09:00 and 19:00 in minutes after midnight, and the candidate stride. */
  const OpenMinute: int := 540
  const CloseMinute: int := 1140
  const Stride: int := 60

  /** The store's `fn_check_overlap(clinic, start, end)`: whether the interval
      collides with an existing booking of the clinic. Its body is not part of
      this model, so every property holds for any oracle. */
  type OverlapOracle = (Id, Instant, Instant) -> bool

  /** Why `get_slots` raises: `.single()` finds no service row, or no
      `clinic_settings` row. */
  datatype SlotError = ServiceNotFound | SettingsNotFound

  /** The starts the `while cur + dur <= end` loop visits from `cur`. */
  function Candidates(cur: Instant, end: Instant, dur: int): seq<Instant>
    decreases end - dur - cur
  {
    if cur + dur <= end then [cur] + Candidates(cur + Stride, end, dur) else []
  }

  /** The candidates the overlap oracle reports free, as slots of length `dur`. */
  function Kept(cands: seq<Instant>, dur: int, clinic: Id, overlap: OverlapOracle): seq<Slot>
  {
    if cands == [] then []
    else
      (if overlap(clinic, cands[0], cands[0] + dur) then [] else [Slot(cands[0], cands[0] + dur)])
      + Kept(cands[1..], dur, clinic, overlap)
  }

  function DayOpen(day: Day): Instant
  {
    Midnight(day) + OpenMinute
  }

  function DayClose(day: Day): Instant
  {
    Midnight(day) + CloseMinute
  }

  /** The slots `get_slots` lists for a service of `dur` minutes on `day`. */
  function DaySlots(day: Day, dur: int, clinic: Id, overlap: OverlapOracle): seq<Slot>
  {
    Kept(Candidates(DayOpen(day), DayClose(day), dur), dur, clinic, overlap)
  }

  /** `get_slots(sb, clinic_id, service_id, date)`: reads the service's
      duration and requires a settings row, then lists the day's free slots.
      It returns no store, so it writes nothing. */
  function GetSlots(db: Db, hasSettings: bool, clinic: Id, serviceId: Id, day: Day,
                    overlap: OverlapOracle): (r: Result<seq<Slot>, SlotError>)
    ensures r.Failure? <==> serviceId >= |db.services| || !hasSettings
    ensures r.Success? ==> forall s :: s in r.value ==>
      DayOpen(day) <= s.startAt && s.endAt == s.startAt + db.services[serviceId].durationMin
      && s.endAt <= DayClose(day) && !overlap(clinic, s.startAt, s.endAt)
  {
    if serviceId >= |db.services| then Failure(ServiceNotFound)
    else if !hasSettings then Failure(SettingsNotFound)
    else
      var dur := db.services[serviceId].durationMin;
      SlotsWithinWindow(day, dur, clinic, overlap);
      Success(DaySlots(day, dur, clinic, overlap))
  }

  /** A start the loop visits: on the 60-minute grid from `cur` and ending by `end`. */
  predicate OnGrid(cur: Instant, end: Instant, dur: int, c: Instant)
  {
    cur <= c && (c - cur) % Stride == 0 && c + dur <= end
  }

  /** The k-th candidate is `cur + 60k`; there are `(end - cur - dur) div 60 + 1`
      of them when the first fits, none otherwise. */
  lemma {:induction false} CandidatesShape(cur: Instant, end: Instant, dur: int)
    ensures var r := Candidates(cur, end, dur);
      && |r| == (if cur + dur <= end then (end - cur - dur) / Stride + 1 else 0)
      && forall k :: 0 <= k < |r| ==> r[k] == cur + Stride * k
    decreases end - dur - cur
  {
    if cur + dur <= end {
      CandidatesShape(cur + Stride, end, dur);
      var r := Candidates(cur, end, dur);
      var rest := Candidates(cur + Stride, end, dur);
      assert r == [cur] + rest;
      forall k | 1 <= k < |r|
        ensures r[k] == cur + Stride * k
      {
        assert r[k] == rest[k - 1];
      }
    }
  }

  /** A start is a candidate exactly when it is on the grid and fits. */
  lemma CandidatesMembership(cur: Instant, end: Instant, dur: int, c: Instant)
    ensures c in Candidates(cur, end, dur) <==> OnGrid(cur, end, dur, c)
  {
    CandidatesShape(cur, end, dur);
    var r := Candidates(cur, end, dur);
    if OnGrid(cur, end, dur, c) {
      var k := (c - cur) / Stride;
      assert c == cur + Stride * k;
      assert cur + dur <= end;
      assert k <= (end - cur - dur) / Stride;
      assert r[k] == c;
    }
  }

  /** A slot is kept exactly when its start is a candidate, its length is `dur`
      and the oracle reports no overlap. */
  lemma {:induction false} KeptMembership(cands: seq<Instant>, dur: int, clinic: Id,
                                          overlap: OverlapOracle, s: Slot)
    ensures s in Kept(cands, dur, clinic, overlap) <==>
      s.startAt in cands && s.endAt == s.startAt + dur && !overlap(clinic, s.startAt, s.endAt)
  {
    if cands != [] {
      KeptMembership(cands[1..], dur, clinic, overlap, s);
      assert cands == [cands[0]] + cands[1..];
    }
  }

  /** Starts strictly increase along the sequence. */
  predicate Ascending(r: seq<Slot>)
  {
    forall i, j :: 0 <= i < j < |r| ==> r[i].startAt < r[j].startAt
  }

  /** Kept slots follow the order of their starts: strictly increasing
      candidates give strictly increasing slots. */
  lemma {:induction false} KeptAscending(cands: seq<Instant>, dur: int, clinic: Id, overlap: OverlapOracle)
    requires forall i, j :: 0 <= i < j < |cands| ==> cands[i] < cands[j]
    ensures Ascending(Kept(cands, dur, clinic, overlap))
  {
    if cands != [] {
      KeptAscending(cands[1..], dur, clinic, overlap);
      var rest := Kept(cands[1..], dur, clinic, overlap);
      forall s | s in rest
        ensures cands[0] < s.startAt
      {
        KeptMembership(cands[1..], dur, clinic, overlap, s);
        var k :| 0 <= k < |cands[1..]| && cands[1..][k] == s.startAt;
        assert cands[k + 1] == s.startAt;
      }
      var head := if overlap(clinic, cands[0], cands[0] + dur) then [] else [Slot(cands[0], cands[0] + dur)];
      var r := Kept(cands, dur, clinic, overlap);
      assert r == head + rest;
      forall i, j | 0 <= i < j < |r|
        ensures r[i].startAt < r[j].startAt
      {
        if i < |head| {
          assert r[i] == head[i];
          assert r[j] == rest[j - |head|];
          assert r[j] in rest;
          assert cands[0] < r[j].startAt;
          assert r[i].startAt == cands[0];
        } else {
          assert r[i] == rest[i - |head|] && r[j] == rest[j - |head|];
        }
      }
    }
  }

  /** Every listed slot starts at or after 09:00, lasts `dur` minutes and ends
      by 19:00. */
  lemma SlotsWithinWindow(day: Day, dur: int, clinic: Id, overlap: OverlapOracle)
    ensures forall s :: s in DaySlots(day, dur, clinic, overlap) ==>
      DayOpen(day) <= s.startAt && s.endAt == s.startAt + dur && s.endAt <= DayClose(day)
      && !overlap(clinic, s.startAt, s.endAt)
  {
    forall s | s in DaySlots(day, dur, clinic, overlap)
      ensures DayOpen(day) <= s.startAt && s.endAt == s.startAt + dur && s.endAt <= DayClose(day)
      ensures !overlap(clinic, s.startAt, s.endAt)
    {
      KeptMembership(Candidates(DayOpen(day), DayClose(day), dur), dur, clinic, overlap, s);
      CandidatesMembership(DayOpen(day), DayClose(day), dur, s.startAt);
    }
  }

  /** The slots are listed earliest first, with strictly increasing starts. */
  lemma SlotsAscending(day: Day, dur: int, clinic: Id, overlap: OverlapOracle)
    ensures Ascending(DaySlots(day, dur, clinic, overlap))
  {
    var cands := Candidates(DayOpen(day), DayClose(day), dur);
    CandidatesShape(DayOpen(day), DayClose(day), dur);
    assert forall i, j :: 0 <= i < j < |cands| ==> cands[i] < cands[j];
    KeptAscending(cands, dur, clinic, overlap);
    assert DaySlots(day, dur, clinic, overlap) == Kept(cands, dur, clinic, overlap);
  }

  /** A grid start `09:00 + 60k` whose interval fits by 19:00 is listed if and
      only if the oracle reports no overlap for it. */
  lemma SlotListedIff(day: Day, dur: int, clinic: Id, overlap: OverlapOracle, start: Instant)
    requires OnGrid(DayOpen(day), DayClose(day), dur, start)
    ensures Slot(start, start + dur) in DaySlots(day, dur, clinic, overlap)
      <==> !overlap(clinic, start, start + dur)
  {
    KeptMembership(Candidates(DayOpen(day), DayClose(day), dur), dur, clinic, overlap, Slot(start, start + dur));
    CandidatesMembership(DayOpen(day), DayClose(day), dur, start);
  }

  /** The loop always ends: a service of at most 600 minutes has
      `(600 - dur) div 60 + 1` candidate starts, a longer one none. */
  lemma CandidateCount(day: Day, dur: int)
    ensures |Candidates(DayOpen(day), DayClose(day), dur)|
      == if dur <= 600 then (600 - dur) / 60 + 1 else 0
  {
    CandidatesShape(DayOpen(day), DayClose(day), dur);
  }

  /** One turn of the slot loop: the first candidate is kept or dropped, and
      the rest starts one stride later. */
  lemma KeptStep(cur: Instant, end: Instant, dur: int, clinic: Id, overlap: OverlapOracle)
    requires cur + dur <= end
    ensures Kept(Candidates(cur, end, dur), dur, clinic, overlap)
      == (if overlap(clinic, cur, cur + dur) then [] else [Slot(cur, cur + dur)])
         + Kept(Candidates(cur + Stride, end, dur), dur, clinic, overlap)
  {
    var cands := Candidates(cur, end, dur);
    assert cands[0] == cur && cands[1..] == Candidates(cur + Stride, end, dur);
  }

  /** `get_slots` as the source writes it: a `while` loop that appends each
      free candidate. */
  method ComputeSlots(db: Db, hasSettings: bool, clinic: Id, serviceId: Id, day: Day,
                      overlap: OverlapOracle) returns (r: Result<seq<Slot>, SlotError>)
    ensures r == GetSlots(db, hasSettings, clinic, serviceId, day, overlap)
  {
    if serviceId >= |db.services| {
      return Failure(ServiceNotFound);
    }
    if !hasSettings {
      return Failure(SettingsNotFound);
    }
    var dur := db.services[serviceId].durationMin;
    var slots: seq<Slot> := [];
    var cur := DayOpen(day);
    var end := DayClose(day);
    while cur + dur <= end
      invariant slots + Kept(Candidates(cur, end, dur), dur, clinic, overlap)
                == DaySlots(day, dur, clinic, overlap)
      decreases end - dur - cur
    {
      KeptStep(cur, end, dur, clinic, overlap);
      var rest := Kept(Candidates(cur + Stride, end, dur), dur, clinic, overlap);
      if !overlap(clinic, cur, cur + dur) {
        assert slots + [Slot(cur, cur + dur)] + rest == slots + ([Slot(cur, cur + dur)] + rest);
        slots := slots + [Slot(cur, cur + dur)];
      } else {
        assert [] + rest == rest;
      }
      cur := cur + Stride;
    }
    assert Kept(Candidates(cur, end, dur), dur, clinic, overlap) == [];
    assert slots + [] == slots;
    return Success(slots);
  }

  /** `book_appointment`'s payload. */
  datatype Payload = Payload(clinicId: Id, contactId: Id, serviceId: Id, startAt: Instant, endAt: Instant)

  /** Which of the two inserts, if any, the store rejects. */
  datatype InsertFault = NoFault | AppointmentInsertFails | ReminderInsertFails

  /** The store after the call and what the call returned or raised. */
  datatype Booking = Booking(db: Db, outcome: Result<(Id, Appointment), InsertFault>)

  const ConfirmedStatus: string := "confirmed"
  const WhatsApp: string := "whatsapp"

  /** `book_appointment(sb, payload)`: insert a confirmed appointment, then its
      reminder scheduled at the appointment's start; the two inserts are not
      one transaction. */
  function BookAppointment(db: Db, p: Payload, fault: InsertFault): (b: Booking)
    ensures b.db.clinics == db.clinics && b.db.contacts == db.contacts
      && b.db.channels == db.channels && b.db.conversations == db.conversations
      && b.db.messages == db.messages && b.db.services == db.services
    ensures fault == AppointmentInsertFails ==> b == Booking(db, Failure(fault))
    ensures fault != AppointmentInsertFails ==>
      var id := |db.appointments|;
      && b.db.appointments == db.appointments + [Appointment(p.clinicId, p.contactId, p.serviceId,
                                                             p.startAt, p.endAt, ConfirmedStatus, WhatsApp)]
      && (fault == ReminderInsertFails ==> b.db.reminders == db.reminders && b.outcome == Failure(fault))
      && (fault == NoFault ==>
            && b.db.reminders == db.reminders + [Reminder(p.clinicId, id, WhatsApp, p.startAt, None, Scheduled)]
            && b.outcome == Success((id, b.db.appointments[id])))
  {
    if fault == AppointmentInsertFails then Booking(db, Failure(fault))
    else
      var appt := Appointment(p.clinicId, p.contactId, p.serviceId, p.startAt, p.endAt, ConfirmedStatus, WhatsApp);
      var id := |db.appointments|;
      var db1 := db.(appointments := db.appointments + [appt]);
      if fault == ReminderInsertFails then Booking(db1, Failure(fault))
      else
        var rem := Reminder(p.clinicId, id, WhatsApp, p.startAt, None, Scheduled);
        Booking(db1.(reminders := db.reminders + [rem]), Success((id, appt)))
  }

  /** One overlap check an `fn_check_overlap` could implement: the interval
      meets a confirmed appointment of the clinic. */
  predicate BookingOverlap(appts: seq<Appointment>, clinic: Id, s: Instant, e: Instant)
  {
    exists i | 0 <= i < |appts| ::
      appts[i].clinicId == clinic && appts[i].status == ConfirmedStatus
      && appts[i].startAt < e && s < appts[i].endAt
  }

  /** Round trip: once a listed slot is booked, a store whose overlap check
      sees confirmed appointments no longer lists it for that day. */
  lemma BookedSlotNoLongerListed(db: Db, p: Payload, hasSettings: bool, day: Day)
    requires p.serviceId < |db.services|
    requires p.startAt < p.endAt == p.startAt + db.services[p.serviceId].durationMin
    ensures var b := BookAppointment(db, p, NoFault);
      var r := GetSlots(b.db, hasSettings, p.clinicId, p.serviceId, day,
                        (c: Id, s: Instant, e: Instant) => BookingOverlap(b.db.appointments, c, s, e));
      r.Success? ==> Slot(p.startAt, p.endAt) !in r.value
  {
    var b := BookAppointment(db, p, NoFault);
    var id := |db.appointments|;
    assert b.db.appointments[id].startAt == p.startAt;
    assert BookingOverlap(b.db.appointments, p.clinicId, p.startAt, p.endAt);
  }
}

=== FILE: store.dfy ===
/** The hosted relational store as the core sees it: one table per entity,
    each a sequence of rows whose id is the row's index. The core never
    deletes, so an insert appends and returns the new length as the id, an
    update-by-id replaces one element (and matches nothing for an unknown id),
    and rows come back from a query in insertion order. */
module Store {
  import opened Wrappers
  import opened Clock

  type Id = nat

  datatype Clinic = Clinic(name: string)

  datatype Contact = Contact(
    clinicId: Id,
    phone: string,
    fullName: string,
    source: string,
    status: string,
    createdAt: Instant,
    updatedAt: Instant,
    lastActivityAt: Instant)

  /** A row of `contact_channels`. */
  datatype ContactChannel = ContactChannel(
    contactId: Id,
    channelType: string,
    channelValue: string,
    isPrimary: bool,
    status: string,
    createdAt: Instant)

  datatype ConversationStatus = Open | Closed

  /** The five states of the dialogue, plus any other value found in a stored
      context. A context without a `state` key reads as `Initial`. */
  datatype State =
    | Initial
    | AwaitingService
    | ServiceSelected
    | DateSelected
    | AppointmentPending
    | Unrecognized(name: string)

  /** A bookable interval: start and end instants. */
  datatype Slot = Slot(startAt: Instant, endAt: Instant)

  /** The dialogue context kept in `conversations.context_data`; an absent key
      is `None`. `selectedService` is a catalog slug, `selectedDate` the day
      whose midnight the source stores. */
  datatype Ctx = Ctx(
    state: State,
    selectedService: Option<string>,
    serviceId: Option<Id>,
    selectedDate: Option<Day>,
    selectedSlot: Option<Slot>)

  /** The empty context `{}` and the reset context `{"state": "initial"}`,
      which the dialogue cannot tell apart. */
  const InitialCtx: Ctx := Ctx(Initial, None, None, None, None)

  datatype Conversation = Conversation(
    clinicId: Id,
    contactId: Id,
    channel: string,
    status: ConversationStatus,
    createdAt: Instant,
    updatedAt: Instant,
    lastMessageAt: Instant,
    messageCount: int,
    closedAt: Option<Instant>,
    closeReason: Option<string>,
    context: Ctx)

  datatype Message = Message(
    clinicId: Id,
    conversationId: Id,
    contactId: Option<Id>,
    staffId: Option<Id>,
    direction: string,
    channel: string,
    content: string,
    status: string,
    externalMessageId: Option<string>,
    createdAt: Instant)

  datatype Service = Service(clinicId: Id, name: string, durationMin: int)

  datatype Appointment = Appointment(
    clinicId: Id,
    contactId: Id,
    serviceId: Id,
    startAt: Instant,
    endAt: Instant,
    status: string,
    source: string)

  datatype ReminderStatus = Scheduled | Sent

  /** A row of `appointment_reminders`. */
  datatype Reminder = Reminder(
    clinicId: Id,
    appointmentId: Id,
    channel: string,
    scheduledAt: Instant,
    sentAt: Option<Instant>,
    status: ReminderStatus)

  datatype Db = Db(
    clinics: seq<Clinic>,
    contacts: seq<Contact>,
    channels: seq<ContactChannel>,
    conversations: seq<Conversation>,
    messages: seq<Message>,
    services: seq<Service>,
    appointments: seq<Appointment>,
    reminders: seq<Reminder>)
}

=== FILE: text.dfy ===
/** Text primitives for the dialogue and the registry: substring search (every
    regular expression of the source that is an alternation of literals is a
    containment test), lower-casing, whitespace stripping and character removal. */
module Text {

  /** `p` occurs in `t` starting at index `i`. */
  predicate At(t: string, p: string, i: int)
  {
    0 <= i && i + |p| <= |t| && t[i..i + |p|] == p
  }

  /** `p in t` (equivalently, `re.search(p, t)` for a literal `p`). */
  predicate Contains(t: string, p: string)
  {
    exists i | 0 <= i <= |t| - |p| :: At(t, p, i)
  }

  /** Some word of the list occurs in the text (the alternation search the
      dialogue uses). */
  predicate ContainsAny(t: string, ps: seq<string>)
  {
    exists k | 0 <= k < |ps| :: Contains(t, ps[k])
  }

  /** A text containing `a` contains everything `a` contains. */
  lemma ContainsTransitive(t: string, a: string, b: string)
    requires Contains(t, a) && Contains(a, b)
    ensures Contains(t, b)
  {
    var i :| 0 <= i <= |t| - |a| && At(t, a, i);
    var j :| 0 <= j <= |a| - |b| && At(a, b, j);
    forall k | 0 <= k < |b|
      ensures t[i + j + k] == b[k]
    {
      assert t[i..i + |a|][j + k] == a[j + k];
      assert a[j..j + |b|][k] == a[j + k];
    }
    assert At(t, b, i + j);
  }

  /** Witness form of `Contains`. */
  lemma ContainsAt(t: string, p: string, i: int)
    requires At(t, p, i)
    ensures Contains(t, p)
  {
  }

  /** Python's `str.lower` on the letters Spanish text uses: ASCII capitals
      and the accented capitals Á É Í Ó Ú Ü Ñ. */
  function LowerChar(c: char): char
  {
    if 'A' <= c <= 'Z' then (c as int + 32) as char
    else if c == 'Á' then 'á'
    else if c == 'É' then 'é'
    else if c == 'Í' then 'í'
    else if c == 'Ó' then 'ó'
    else if c == 'Ú' then 'ú'
    else if c == 'Ü' then 'ü'
    else if c == 'Ñ' then 'ñ'
    else c
  }

  function Lower(s: string): (r: string)
    ensures |r| == |s|
    ensures forall i :: 0 <= i < |s| ==> r[i] == LowerChar(s[i])
  {
    seq(|s|, i requires 0 <= i < |s| => LowerChar(s[i]))
  }

  /** `str.isspace()` on one character, the set `str.strip()` removes: the
      ASCII controls 0x09-0x0D and 0x1C-0x1F, the space, U+0085, U+00A0,
      U+1680, U+2000-U+200A, U+2028, U+2029, U+202F, U+205F and U+3000. */
  predicate IsSpace(c: char)
  {
    ('\U{0009}' <= c <= '\U{000D}') || ('\U{001C}' <= c <= '\U{0020}')
    || c == '\U{0085}' || c == '\U{00A0}' || c == '\U{1680}'
    || ('\U{2000}' <= c <= '\U{200A}') || c == '\U{2028}' || c == '\U{2029}'
    || c == '\U{202F}' || c == '\U{205F}' || c == '\U{3000}'
  }

  function TrimLeft(s: string): (r: string)
    ensures |r| <= |s| && r == s[|s| - |r|..]
    ensures |r| > 0 ==> !IsSpace(r[0])
    ensures forall i :: 0 <= i < |s| - |r| ==> IsSpace(s[i])
  {
    if |s| > 0 && IsSpace(s[0]) then TrimLeft(s[1..]) else s
  }

  function TrimRight(s: string): (r: string)
    ensures |r| <= |s| && r == s[..|r|]
    ensures |r| > 0 ==> !IsSpace(r[|r| - 1])
    ensures forall i :: |r| <= i < |s| ==> IsSpace(s[i])
  {
    if |s| > 0 && IsSpace(s[|s| - 1]) then TrimRight(s[..|s| - 1]) else s
  }

  /** A suffix `l` of `s` after whitespace, and a prefix `r` of `l` before
      whitespace: `r` is one span of `s` with only whitespace around it. */
  lemma StripSpan(s: string, l: string, r: string)
    requires |l| <= |s| && l == s[|s| - |l|..] && forall j :: 0 <= j < |s| - |l| ==> IsSpace(s[j])
    requires |r| <= |l| && r == l[..|r|] && forall j :: |r| <= j < |l| ==> IsSpace(l[j])
    ensures At(s, r, |s| - |l|)
    ensures 0 <= |s| - |l| <= |s| - |r| && r == s[|s| - |l|..][..|r|]
    ensures forall j :: 0 <= j < |s| - |l| ==> IsSpace(s[j])
    ensures forall j :: |s| - |l| + |r| <= j < |s| ==> IsSpace(s[j])
  {
    var i := |s| - |l|;
    assert l == s[i..];
    assert r == l[..|r|];
    assert s[i..i + |r|] == r;
    forall j | i + |r| <= j < |s|
      ensures IsSpace(s[j])
    {
      assert s[j] == l[j - i];
    }
  }

  /** `str.strip()`: drops leading and trailing whitespace, keeps the rest. */
  function Strip(s: string): (r: string)
    ensures |r| > 0 ==> !IsSpace(r[0]) && !IsSpace(r[|r| - 1])
    ensures Contains(s, r)
    ensures exists i ::
              && 0 <= i <= |s| - |r| && r == s[i..][..|r|]
              && (forall j :: 0 <= j < i ==> IsSpace(s[j]))
              && (forall j :: i + |r| <= j < |s| ==> IsSpace(s[j]))
  {
    var l := TrimLeft(s);
    var r := TrimRight(l);
    StripSpan(s, l, r);
    r
  }

  /** `s.replace(c, "")` for a one-character `c`. */
  function RemoveChar(s: string, c: char): (r: string)
    ensures c !in r
    ensures forall d :: d != c ==> (d in r <==> d in s)
    ensures |r| <= |s|
  {
    if s == [] then []
    else (if s[0] == c then [] else [s[0]]) + RemoveChar(s[1..], c)
  }

  /** Python's `s[-n:]`: the last `n` characters, or all of `s` if shorter. */
  function LastChars(s: string, n: nat): (r: string)
    ensures |r| == if |s| < n then |s| else n
    ensures s == s[..|s| - |r|] + r
  {
    if |s| < n then s else s[|s| - n..]
  }

  /** Python's `s[:n]`: the first `n` characters, or all of `s` if shorter. */
  function FirstChars(s: string, n: nat): (r: string)
    ensures |r| == if |s| < n then |s| else n
    ensures s == r + s[|r|..]
  {
    if |s| < n then s else s[..n]
  }

  predicate IsDigit(c: char)
  {
    '0' <= c <= '9'
  }

  function DigitValue(c: char): (v: int)
    requires IsDigit(c)
    ensures 0 <= v <= 9
  {
    c as int - '0' as int
  }
}

=== FILE: wrappers.dfy ===
/** Optional values and results with an error payload, as used throughout the model. */
module Wrappers {

  datatype Option<+T> = None | Some(value: T)

  /** The outcome of an operation of the source that can raise. */
  datatype Result<+R, +E> = Success(value: R) | Failure(error: E)
}
